=== FILE: README.md ===
# Virtual audio/video engine — a Dafny model

This project models the sequential logic of `VirtualAVEngine`
(`core/virtual_av.py`), the engine that feeds local video and audio files to a
virtual camera and a virtual microphone. The engine:

- classifies paths by extension and queues them, one FIFO queue per medium;
- starts and stops one worker per medium;
- runs each worker's outer loop: take the head of the queue, play it, re-queue it in loop mode;
- cuts audio buffers into fixed-size chunks;
- keeps observer registries and fans notifications out to them.

The engine state is an immutable record. Every operation is a pure function
from the old record to the new one, together with the notices it emits.
Threads are replaced by atomic transitions:

- starting a medium is one transition;
- a worker advances one outer-loop iteration at a time;
- stopping a medium comes in two forms. If the join returns in time, the worker's exit runs inside the stop, so its "ended" status comes before "stopped" (`Streams.StopVideoJoined`, `Streams.StopAudioJoined`). If the join times out, the stop is the controller's part alone: raise the flag and release the handles (`Streams.Stop`). The worker then exits later, in an iteration that sees the flag.

The stop flag the worker sees at its loop check is an input of that
iteration. What happens to an item inside a worker is also an input: an
abstract playback outcome. It stands for the media libraries that the model
does not contain.

Modules, leaves first:

| file | module | contents |
|---|---|---|
| options.dfy | Options | `Option` |
| paths.dfy | Paths | last index of a character, final path component, `PurePath.suffix`, lower-casing |
| media.dfy | Media | the two extension sets, `IsVideoFile`, `IsAudioFile`, `Classify` |
| loading.dfy | Loading | `load_media` over an abstract file system, with a reference definition of what a call discovers |
| observers.dfy | Observers | de-duplicated registration and the notification fan-out |
| chunking.dfy | Chunking | the audio write loop: 1024-frame chunks, silence padding, stop flag |
| decoding.dfy | Decoding | the shape of the decoded audio buffer (see Findings) |
| streams.dfy | Streams | per-medium state, start/stop, one iteration of each worker, whole worker runs |
| controller.dfy | Controller | the engine record and its public operations, with the invariant they keep |

Some behaviours of the code a reader may not expect:

- A stop does not clear the current item. `current_video_path` and `current_audio_path` are never reset, so status after a stop still reports the last item (`Controller.StatusAfterStop`).
- In loop mode a video that cannot be opened is re-queued, not dropped. The re-queue sits in the `finally` block (`Streams.VideoLoopRequeuesAlways`).
- After a failed item, the worker goes on to the next item only in loop mode. Without loop mode it leaves after that one item, whatever happened to it (`Streams.NoLoopPlaysOneItem`).
- A mono audio file is not widened to stereo (see Findings).
- When one queue is populated and the other is empty, `load_media` only logs a warning. No observer is notified.

## Model

| member | source | states |
|---|---|---|
| Paths.LastIndex | core/virtual_av.py:335 | the result is the last index of the character, or -1 when it does not occur |
| Paths.Name | core/virtual_av.py:335 | the final path component is the longest tail of the path that has no '/' (POSIX rules) |
| Paths.NameSuffix | core/virtual_av.py:335 | the suffix is non-empty exactly when the name has a '.' that is neither its first nor its last character and has no '.' after it; it is then the tail of the name from that '.' |
| Paths.DotOnlyNameHasNoSuffix | core/virtual_av.py:335 | a name whose only '.' is its first character has an empty suffix |
| Paths.SuffixLower | core/virtual_av.py:335 | lower-casing a path and then taking its suffix gives the lower-cased suffix |
| Media.ExtensionSetsDisjoint | core/virtual_av.py:28-29 | no extension is both a video and an audio extension |
| Media.Classify | core/virtual_av.py:78-83 | the result is Video exactly for video files, Audio exactly for audio files, and nothing for every other path |
| Media.NeverBoth | core/virtual_av.py:333-339 | no path is both a video file and an audio file |
| Media.ClassifyIgnoresCase | core/virtual_av.py:335 | a path and its lower-cased form are classified alike |
| Media.ClassifyBySuffixOnly | core/virtual_av.py:333-339 | paths whose lower-cased suffixes agree are classified alike |
| Media.IsVideoFile | core/virtual_av.py:333-335 | a path is a video file exactly when its suffix, lower-cased, is one of the five video extensions |
| Media.IsAudioFile | core/virtual_av.py:337-339 | a path is an audio file exactly when its suffix, lower-cased, is one of the five audio extensions |
| Media.NoSuffixIsUnsupported | core/virtual_av.py:333-339 | a path without a suffix is neither a video nor an audio file |
| Media.DotOnlyNameIsUnsupported | core/virtual_av.py:335 | for every path whose name's only '.' is its first character (".mp4", say), classification gives nothing |
| Media.DotFileIsUnsupported | core/virtual_av.py:335 | a name that is only an extension, like ".mp4", has no suffix and is unsupported |
| Media.UpperCaseExtensionIsVideo | core/virtual_av.py:335 | an upper-case ".MP4" is recognised as video |
| Loading.LoadPaths | core/virtual_av.py:73-98 | processing the argument list only appends to each queue and list; new queue items are of the queue's medium; the queues grow by as many paths as there are new `loaded` entries |
| Loading.LoadMedia | core/virtual_av.py:61-106 | each old queue is a prefix of the new one; new items are of the queue's medium; the total queue growth equals the length of `loaded` |
| Loading.LoadPath | core/virtual_av.py:73-98 | one argument: a regular file is queued by medium or reported unsupported, a directory queues its search results, anything else is reported not found |
| Loading.LoadPathMeaning | core/virtual_av.py:73-98 | one argument appends to each queue its candidates of that medium, one entry per queued candidate, and its own error messages |
| Loading.EnqueueAllMeaning | core/virtual_av.py:88-96 | the search results of a directory append exactly their video paths, their audio paths and one entry each, in search order; they report no error |
| Loading.LoadMediaMeaning | core/virtual_av.py:70-106 | the call equals the reference definition: each queue gains the discovered paths of its medium in discovery order; `loaded` has one entry per queued path in the same order; `errors` has one message per unsupported file or missing path |
| Loading.LoadRegularFile | core/virtual_av.py:77-85 | a regular file is handled in exactly one of three ways: queued as video with one "Video: " entry, queued as audio with one "Audio: " entry, or reported as unsupported with both queues unchanged |
| Loading.LoadMissingPath | core/virtual_av.py:97-98 | a path that is neither a file nor a directory yields exactly one "File or directory not found" error and changes no queue |
| Loading.LoadDirectory | core/virtual_av.py:86-96 | a directory reports no error and queues its search results by medium, in search order |
| Loading.LoadSupportedFiles | core/virtual_av.py:73-85 | when every path is a supported regular file, each queue grows by exactly the files of its medium in argument order; there is one entry per file and no error |
| Controller.LoadMedia | core/virtual_av.py:61-106 | on the engine, only the two queues change; they only grow, each with paths of its own medium, by one path per `loaded` entry |
| Controller.LoadRegularFile | core/virtual_av.py:77-85 | a regular file is queued as video with one entry, or as audio with one entry, or reported as unsupported; the engine is otherwise unchanged |
| Controller.LoadMissingPath | core/virtual_av.py:97-98 | a missing path yields one "not found" error and leaves the engine unchanged |
| Controller.LoadMediaKeepsValid | core/virtual_av.py:77-96 | loading keeps every queue free of paths of the other medium or of no medium |
| Streams.Start | core/virtual_av.py:123-132 | a medium that is not playing and has a non-empty queue becomes playing, with its stop flag cleared and one "started" status; any other medium is left unchanged, with no notice |
| Streams.Stop | core/virtual_av.py:134-155 | afterwards the medium is not playing; a playing medium has its stop flag raised, both handles null and one "stopped" status; a medium that is not playing is unchanged; queue, loop flag and current item are kept |
| Streams.StartIdempotent | core/virtual_av.py:125-126 | a second start of a medium changes nothing and emits nothing |
| Streams.StopIdempotent | core/virtual_av.py:136-137 | a second stop of a medium changes nothing and emits nothing |
| Controller.StartStreaming | core/virtual_av.py:108-114 | a medium is playing afterwards exactly when it was playing or had something queued; a started medium has its stop flag cleared; only the playing and stop flags change, so queues, loop flags, current items, handles and registries are unchanged; one notice per started medium |
| Controller.StartStreamingIdempotent | core/virtual_av.py:108-114 | calling `start_streaming` again while the media play changes nothing and emits nothing |
| Controller.StartWithEmptyQueue | core/virtual_av.py:110-114 | an idle medium with an empty queue is not touched by a start |
| Controller.StopStreaming | core/virtual_av.py:116-119 | when the joins time out: afterwards neither medium is playing; each medium that was playing has its stop flag raised and its handles null; each idle medium is unchanged; queues, current items and registries are kept |
| Streams.StopVideoJoined | core/virtual_av.py:134-155 | with a join that returns: afterwards the medium is not playing; a playing medium has its flag raised and both handles null, and its last two notices are the worker's "Video streaming ended" and then "Video streaming stopped"; an idle medium is unchanged |
| Streams.StopAudioJoined | core/virtual_av.py:236-255 | the same for audio |
| Streams.VideoStopAtLoopCheck | core/virtual_av.py:134-162 | a worker that is at its loop check when the flag is raised takes nothing: the joined stop leaves the medium as `Stop` does and emits "ended" then "stopped" |
| Streams.AudioStopAtLoopCheck | core/virtual_av.py:236-260 | the same for audio |
| Streams.StopInterruptsLoopingVideo | core/virtual_av.py:199-210 | stopping a looping video mid-item puts the item back at the tail before the join returns; it stays current, and the notices are "ended" then "stopped" |
| Streams.StopInterruptsLoopingAudio | core/virtual_av.py:304-306 | stopping a looping audio item before its end drops it from the queue; it stays current, and the notices are "ended" then "stopped" |
| Controller.StopStreamingJoined | core/virtual_av.py:116-119 | with joins that return: afterwards neither medium is playing; each playing medium has its flag raised and its handles null; each idle medium is unchanged; loop flags and registries are kept |
| Controller.StatusAfterJoinedStop | core/virtual_av.py:381-396 | after a joined stop that interrupts a looping video, status shows it not playing, with the same queue size as at the loop check before the item was taken, and that item as current |
| Controller.JoinedStopKeepsItems | core/virtual_av.py:199-210 | a joined stop never adds a queue item, and a looping video queue keeps exactly its items |
| Controller.RestartAfterJoinedStop | core/virtual_av.py:108-119 | after a joined stop, a start plays exactly the media whose queue the stop left non-empty; a looping video with something queued is always restarted |
| Controller.RestartDropsInterruptedAudio | core/virtual_av.py:304-306 | a looping one-item audio queue interrupted by a joined stop is empty afterwards, so a start leaves audio idle |
| Controller.StopStreamingIdempotent | core/virtual_av.py:116-119 | a second `stop_streaming` changes nothing and emits nothing |
| Controller.RestartAfterStop | core/virtual_av.py:123-132 | when the joins time out: stopping and then starting plays exactly the media with something queued, with their stop flags cleared |
| Controller.GetStatus | core/virtual_av.py:381-396 | status reports, per medium, the playing flag, the current item, the queue length and the loop flag |
| Controller.StatusAfterStop | core/virtual_av.py:381-396 | after a stop, status reports both media not playing; queue sizes, loop flags and current items are as before the stop |
| Controller.StatusAcrossLoopCycle | core/virtual_av.py:381-396 | with loop mode and one queued video, status after a completed cycle shows the same queue size and that video as current |
| Streams.VideoIteration | core/virtual_av.py:162-213 | an iteration that takes an item makes it the current item and leaves both handles null; a worker that leaves its loop is no longer playing |
| Streams.AudioIteration | core/virtual_av.py:260-322 | an iteration that takes an item makes it the current item and leaves both the stream and the buffer null; a worker that leaves its loop is no longer playing |
| Streams.IterationsPopHead | core/virtual_av.py:162-163 | each video or audio iteration takes the head of the queue; the rest keeps its order at the front |
| Streams.VideoLoopRequeuesAlways | core/virtual_av.py:199-210 | in loop mode the video item returns to the tail of the queue whatever happened to it, including an open failure or an exception |
| Streams.ReachedEndMeaning | core/virtual_av.py:289-305 | the audio test `position >= len` holds exactly when the write loop did not see the stop flag |
| Streams.AudioLoopRequeuesOnlyAtEnd | core/virtual_av.py:304-306 | in loop mode the audio item returns to the tail exactly when its buffer was played to the end; otherwise it is dropped |
| Streams.NoLoopPlaysOneItem | core/virtual_av.py:212-213 | without loop mode either worker removes exactly one item and leaves its loop, and the medium is no longer playing |
| Streams.SingleItemLoopCycle | core/virtual_av.py:199-213 | with loop mode and a single item, a completed cycle leaves the queue as it was, that item as current, and the worker still running |
| Streams.CannotOpenReportedOnce | core/virtual_av.py:166-197 | a video that cannot be opened produces exactly one error notice, which names the file; in loop mode the worker goes on |
| Streams.StopObservedAtLoopCheck | core/virtual_av.py:162 | when the loop check sees the stop flag, the worker takes nothing, leaves the queue as it is, and ends with one "ended" status |
| Streams.VideoLoopKeepsQueue | core/virtual_av.py:162-213 | in loop mode, any number of video iterations keeps the queue's multiset of paths |
| Streams.AudioNeverAddsItems | core/virtual_av.py:260-322 | any number of audio iterations leaves a queue whose multiset of paths is contained in the old one |
| Streams.VideoWorker | core/virtual_av.py:157-221 | a worker that has left its loop is no longer playing; without the camera library it reports one error, ends, and leaves the queue as it was |
| Streams.RunVideo | core/virtual_av.py:160-213 | over any schedule of stop flags and outcomes, a worker that has left its loop is not playing, and the loop flag is unchanged |
| Streams.RunAudio | core/virtual_av.py:259-322 | the same for the audio worker |
| Streams.CameraMissing | core/virtual_av.py:215-221 | without the virtual-camera library the worker reports one error, ends, and leaves the queue untouched |
| Controller.VideoIterationKeepsValid | core/virtual_av.py:199-210 | a video iteration keeps the video queue to video paths and leaves no handle open |
| Controller.AudioIterationKeepsValid | core/virtual_av.py:304-319 | an audio iteration keeps the audio queue to audio paths and leaves no stream or buffer held |
| Controller.StreamingKeepsValid | core/virtual_av.py:108-155 | start, stop, cleanup and the loop flags keep the engine invariant |
| Controller.RegistrationKeepsValid | core/virtual_av.py:361-369 | registration keeps both registries free of duplicates |
| Chunking.ChunkCount | core/virtual_av.py:289-299 | the chunk count is the least number of 1024-frame chunks that covers the buffer |
| Chunking.ChunkAtIsPaddedSlice | core/virtual_av.py:290-296 | the k-th chunk, cut short and padded with silence, is the k-th 1024 frames of the data followed by silence |
| Chunking.PlayBuffer | core/virtual_av.py:288-299 | each chunk holds exactly 1024 frames; the position advances by 1024 per write; the chunks concatenate to a prefix of the data padded with silence; an uninterrupted pass writes ceil(n/1024) chunks that concatenate to the whole padded data; the end is reached exactly when the stop flag was not seen |
| Observers.Register | core/virtual_av.py:361-364 | an observer already present leaves the registry unchanged; otherwise it is appended at the end; the registry stays free of duplicates |
| Observers.RegisterAllMeaning | core/virtual_av.py:361-369 | registering a list of observers appends the first occurrences of those not yet present, in order |
| Observers.RegisterAllFromEmpty | core/virtual_av.py:361-364 | starting from an empty registry, registration keeps exactly the first occurrence of each observer, in order |
| Observers.RegisterIdempotent | core/virtual_av.py:363-364 | registering the same observer twice is registering it once |
| Observers.Notify | core/virtual_av.py:344-348 | every observer is called once with the message, in registry order, including those after one that raised |
| Controller.RegisterStatusCallback | core/virtual_av.py:361-364 | the callback is present afterwards; if it was already present, nothing changes; otherwise it is appended at the end |
| Controller.RegisterErrorCallback | core/virtual_av.py:366-369 | the same, for the error registry |
| Controller.Publish | core/virtual_av.py:341-357 | a status goes to every status callback and an error to every error callback, in registration order, whether or not earlier ones raise |
| Controller.Cleanup | core/virtual_av.py:398-403 | when the joins time out: afterwards both registries are empty and neither medium is playing; queues are kept |
| Controller.CleanupJoined | core/virtual_av.py:398-403 | when the joins return: afterwards both registries are empty and neither medium is playing; no queue gains an item, and a looping video queue keeps exactly its items |
| Decoding.WidenAsWritten | core/virtual_av.py:271-273 | as written, widening applies only to a one-dimensional array; a two-dimensional one is kept as it is |
| Decoding.DecodeAsWritten | core/virtual_av.py:265-273 | as written, the decoded buffer keeps the file's channel count and length |
| Decoding.MonoNotWidenedAsWritten | core/virtual_av.py:265-273 | as written, a mono file is decoded into a one-channel buffer, which does not match the two-channel sink |
| Decoding.DecodeFitsSink | core/virtual_av.py:265-283 | with the intended widening, mono and stereo files both reach the sink as two-channel buffers of the file's length |

## Left out

- Threads, `threading.Event`, `join(timeout=2.0)` and daemon flags: each start, stop and worker iteration is one atomic transition. The stop flag the worker sees is an input. A stop is modelled either with the worker's exit inside the join or with the exit after the whole stop. Finer interleavings of a timed-out join with a worker that is still running are not modelled.
- Pacing and back-off (`sleep_until_next_frame`, `time.sleep`): timing only.
- OpenCV, pyvirtualcam, soundfile and sounddevice calls: each item's fate is an abstract playback outcome. Frame pixels, float samples, frame sizes, frame rates, sample rates and the sink's device name are not modelled.
- Streams.VideoIteration: the video outcome is an input and is not tied to the inner frame loop. In the source, with loop mode on and other items still queued, the inner loop rewinds at the end of the file instead of ending, so only the stop flag or an exception can end that item. The model accepts `Ended` there too. This cannot change the queue, because the video re-queue does not depend on the outcome.
- Streams.VideoIteration: the loop flag is read once per iteration. The source reads it twice, in `finally` and at the `break` test, so a flag toggled from another thread between the two reads is not modelled.
- Streams.AudioIteration: the outer "Fatal audio error" handler is not modelled. It is reachable only when stopping or closing the sink raises during cleanup.
- Streams.VideoIteration: a video camera whose `close()` raises in `finally` would end the worker thread with `video_playing` left true. Failures of foreign calls during cleanup are not modelled.
- Paths.Name: uses POSIX path rules, where '/' is the only separator. On Windows, which the program targets, `pathlib` also splits on '\' and strips a drive prefix. So a path such as `C:\clips\.mp4` is classified as video by the model, but the code finds no suffix and reports it unsupported. `Media.DotOnlyNameIsUnsupported` holds for the POSIX name only.
- Streams.Stop: models a stop whose join times out. The worker is still inside its loop when the handles are released, and it emits "ended" and may re-queue a looping video afterwards. A join that returns in time is `Streams.StopVideoJoined` / `Streams.StopAudioJoined`. The `stopRequested` field records the event; the worker iterations take the flag they see as an explicit input rather than reading that field.
- Controller.StatusAfterStop: holds for the stop whose joins time out, with the workers' exits still to come. When the join returns and the stop interrupts a looping video, the worker has already re-queued the item. `Controller.StatusAfterJoinedStop` covers that case.
- Controller.RestartAfterStop: holds only when the joins time out, so the workers exit after the restart's guard has been tested. When the joins return, a looping audio item cut short is dropped and may leave its medium idle. `Controller.RestartAfterJoinedStop` and `Controller.RestartDropsInterruptedAudio` cover that case.
- Controller.Cleanup: "queues are kept" holds only when the joins time out. When they return, a looping video's interrupted item moves to the tail and an audio item cut short is dropped. `Controller.CleanupJoined` covers that case.
- Streams.Medium: no transition of the model ever opens a handle, because opening the capture, camera and output stream happens inside the abstract playback outcome. On every reachable state `source` and `sink` are therefore null, and the "handles released" clauses of `Streams.Stop`, `Controller.StopStreaming` and `Controller.Valid` hold trivially there. A handle still held by a worker that outlived a timed-out join is not modelled.
- Loading.LoadMedia: `Path.absolute()` and path normalisation are an abstract parameter `absolute`. The file system is a map from absolute path to regular file, directory or missing. The recursive search (`rglob`, once per known extension) is an abstract sequence of absolute paths per directory, in whatever order the search yields them. As in the source, the search results are classified by name only.
- Errors raised by the file system during a load (for example permission errors in the search) are not modelled.
- The warnings about one queue being empty only log; logging is not modelled. Observer exceptions are recorded only as a "raised" flag on the call.
- Paths.LowerChar: only ASCII letters and the Kelvin sign (which lower-cases to 'k') are mapped. Other non-ASCII characters are kept as they are. Every other Unicode lower-casing yields a non-ASCII string, so membership in the ASCII extension sets is decided exactly.
- `set_video_loop` and `set_audio_loop` are modelled as `Controller.SetLoop` with no property of their own. `video_thread`, `audio_thread` and `audio_samplerate` are not modelled.
- The front end clears the queues directly. That is outside the engine and is not modelled.

## Findings

| source | as written | input that shows it | evidently intended | confidence | as-written member | corrected member |
|---|---|---|---|---|---|---|
| core/virtual_av.py:265-273 | `sf.read(..., always_2d=True)` always returns a two-dimensional array, so the `len(shape) == 1` branch that duplicates a mono column never runs. A mono file therefore reaches the two-channel output stream (and the two-column padding) as a one-column buffer. | any one-channel (mono) audio file | duplicate a single channel into two before playback, as the comment "Force stereo if mono" says | medium, not executed | Decoding.MonoNotWidenedAsWritten | Decoding.DecodeFitsSink |

=== FILE: chunking.dfy ===
/** The inner loop of the audio worker: the decoded buffer of `n` frames is
    written to the sink in chunks of `ChunkSize` frames, the last chunk padded
    with silence to full size, until the buffer is exhausted or the stop flag is
    seen. Frames are of an abstract type `F` with a distinguished `silence`
    frame (the all-zero frame of the source). */
module Chunking {

  import opened Options

  const ChunkSize: nat := 1024

  /** The number of chunks an uninterrupted pass writes: the least `c` with
      `c * ChunkSize >= n`. */
  function ChunkCount(n: nat): (c: nat)
    ensures ChunkSize * c >= n
    ensures c > 0 ==> ChunkSize * (c - 1) < n
  {
    (n + ChunkSize - 1) / ChunkSize
  }

  /** A chunk starting at frame `ChunkSize * k` holds data exactly when `k` is
      below the chunk count. */
  lemma ChunkCountMeaning(n: nat, k: nat)
    ensures k < ChunkCount(n) <==> ChunkSize * k < n
  {
    var c := ChunkCount(n);
    if k < c {
      assert ChunkSize * k <= ChunkSize * (c - 1);
    } else {
      assert ChunkSize * k >= ChunkSize * c;
    }
  }

  function Silence<F>(k: nat, silence: F): (z: seq<F>)
    ensures |z| == k
    ensures forall i | 0 <= i < k :: z[i] == silence
  {
    seq(k, i => silence)
  }

  /** The data followed by enough silence to fill the last chunk. */
  function Padded<F>(data: seq<F>, silence: F): (p: seq<F>)
    ensures |p| == ChunkSize * ChunkCount(|data|)
    ensures p[..|data|] == data
  {
    data + Silence(ChunkSize * ChunkCount(|data|) - |data|, silence)
  }

  /** The frames the chunks carry, in order. */
  function Flatten<F>(chunks: seq<seq<F>>): seq<F>
    decreases |chunks|
  {
    if |chunks| == 0 then [] else Flatten(chunks[..|chunks| - 1]) + chunks[|chunks| - 1]
  }

  /** The chunk the worker writes at `position`: the slice
      `data[position:position + ChunkSize]` (cut short at the end of the data),
      padded with silence when it is short. */
  function ChunkAt<F>(data: seq<F>, position: nat, silence: F): (chunk: seq<F>)
    requires position < |data|
    ensures |chunk| == ChunkSize
  {
    var end := if position + ChunkSize <= |data| then position + ChunkSize else |data|;
    data[position..end] + Silence(ChunkSize - (end - position), silence)
  }

  /** The k-th chunk is the k-th `ChunkSize` frames of the padded data. */
  lemma ChunkAtIsPaddedSlice<F>(data: seq<F>, k: nat, silence: F)
    requires ChunkSize * k < |data|
    ensures ChunkSize * (k + 1) <= |Padded(data, silence)|
    ensures ChunkAt(data, ChunkSize * k, silence) == Padded(data, silence)[ChunkSize * k..ChunkSize * (k + 1)]
  {
    ChunkCountMeaning(|data|, k);
    var p := ChunkSize * k;
    var padded := Padded(data, silence);
    var chunk := ChunkAt(data, p, silence);
    assert ChunkSize * (k + 1) <= ChunkSize * ChunkCount(|data|);
    forall i | 0 <= i < ChunkSize
      ensures chunk[i] == padded[p + i]
    {
      if p + i < |data| {
        assert padded[p + i] == data[p + i];
      } else {
        assert padded[p + i] == silence;
      }
    }
  }

  /** How many chunks are written when the stop flag is first seen at the loop
      check before chunk `k` (`stopAt == Some(k)`), or never (`None`). A `k`
      beyond the last check means the flag was not seen during this buffer. */
  function ChunksWritten(n: nat, stopAt: Option<nat>): nat
  {
    match stopAt
    case None => ChunkCount(n)
    case Some(k) => if k < ChunkCount(n) then k else ChunkCount(n)
  }

  /** Whether the loop saw the stop flag (rather than running off the end). */
  predicate StopSeen(n: nat, stopAt: Option<nat>)
  {
    stopAt.Some? && stopAt.value < ChunkCount(n)
  }

  /** The write loop over one decoded buffer. `position` is the frame index the
      loop ends on; the worker re-queues the item only if it is at least the
      buffer length. */
  method PlayBuffer<F>(data: seq<F>, silence: F, stopAt: Option<nat>) returns (written: seq<seq<F>>, position: nat)
    ensures |written| == ChunksWritten(|data|, stopAt)
    ensures forall i | 0 <= i < |written| :: |written[i]| == ChunkSize
    ensures position == ChunkSize * |written|
    ensures Flatten(written) == Padded(data, silence)[..position]
    ensures stopAt.None? ==> |written| == ChunkCount(|data|) && Flatten(written) == Padded(data, silence)
    ensures position >= |data| <==> !StopSeen(|data|, stopAt)
  {
    written := [];
    position := 0;
    while stopAt != Some(|written|) && position < |data|
      invariant position == ChunkSize * |written|
      invariant |written| <= ChunkCount(|data|)
      invariant stopAt.Some? ==> |written| <= stopAt.value
      invariant forall i | 0 <= i < |written| :: |written[i]| == ChunkSize
      invariant Flatten(written) == Padded(data, silence)[..position]
      decreases ChunkCount(|data|) - |written|
    {
      ChunkCountMeaning(|data|, |written|);
      var chunk := ChunkAt(data, position, silence);
      ChunkAtIsPaddedSlice(data, |written|, silence);
      assert (written + [chunk])[..|written|] == written;
      written := written + [chunk];
      position := position + ChunkSize;
    }
    ChunkCountMeaning(|data|, |written|);
  }
}

=== FILE: controller.dfy ===
/** The engine's public surface: loading media, starting and stopping both
    media, loop flags, status, observer registration, notification and cleanup.
    The engine is an immutable record; every operation returns the new record
    together with whatever it reports. */
module Controller {

  import opened Options
  import opened Media
  import Loading
  import opened Observers
  import opened Streams
  import Chunking

  /** An observer callback; only its identity matters. */
  datatype Callback = Callback(id: nat)

  datatype Engine = Engine(
    video: Medium,
    audio: Medium,
    statusCallbacks: seq<Callback>,
    errorCallbacks: seq<Callback>)

  /** A freshly constructed engine. */
  const Initial: Engine := Engine(Idle, Idle, [], [])

  /** A transition of the engine and the notices it emits, in order. */
  datatype Effect = Effect(engine: Engine, notices: seq<Notice>)

  // ----- Invariant -----

  /** Between transitions no device or decoder handle is held: handles live only
      inside a worker iteration. */
  predicate HandlesReleased(m: Medium)
  {
    m.source == None && m.sink == None
  }

  /** What every reachable engine satisfies: each queue holds only paths of its
      medium, both registries are free of duplicates, and no handle is held. */
  predicate Valid(e: Engine)
  {
    && (forall i | 0 <= i < |e.video.queue| :: IsVideoFile(e.video.queue[i]))
    && (forall i | 0 <= i < |e.audio.queue| :: IsAudioFile(e.audio.queue[i]))
    && Distinct(e.statusCallbacks) && Distinct(e.errorCallbacks)
    && HandlesReleased(e.video) && HandlesReleased(e.audio)
  }

  lemma InitialValid()
    ensures Valid(Initial)
  {
  }

  // ----- Loading -----

  /** The result of `load_media`: the engine with its grown queues, and the
      `(loaded, errors)` pair. */
  datatype Loaded = Loaded(engine: Engine, loaded: seq<string>, errors: seq<string>)

  /** `load_media(paths)`: `fs` is the file system as the call sees it and
      `absolute` the resolution of a path against the working directory. Only
      the two queues change; they only grow, each by paths of its own medium,
      and by one path per `loaded` entry. */
  function LoadMedia(e: Engine, fs: Loading.FileSystem, absolute: string -> string, paths: seq<string>): (r: Loaded)
    ensures r.engine == e.(video := r.engine.video, audio := r.engine.audio)
    ensures r.engine.video == e.video.(queue := r.engine.video.queue)
    ensures r.engine.audio == e.audio.(queue := r.engine.audio.queue)
    ensures e.video.queue <= r.engine.video.queue && e.audio.queue <= r.engine.audio.queue
    ensures |r.engine.video.queue| - |e.video.queue| + |r.engine.audio.queue| - |e.audio.queue| == |r.loaded|
    ensures forall i | |e.video.queue| <= i < |r.engine.video.queue| :: IsVideoFile(r.engine.video.queue[i])
    ensures forall i | |e.audio.queue| <= i < |r.engine.audio.queue| :: IsAudioFile(r.engine.audio.queue[i])
  {
    var l := Loading.LoadMedia(fs, absolute, Classify, e.video.queue, e.audio.queue, paths);
    Loaded(e.(video := e.video.(queue := l.video), audio := e.audio.(queue := l.audio)), l.loaded, l.errors)
  }

  /** An existing regular file is either queued as video with one "Video: "
      entry, or (not being a video file) queued as audio with one "Audio: "
      entry, or reported as unsupported, and nothing else changes. */
  lemma LoadRegularFile(e: Engine, fs: Loading.FileSystem, absolute: string -> string, raw: string)
    requires Loading.Lookup(fs, absolute(raw)) == Loading.RegularFile
    ensures var p := absolute(raw);
      var r := LoadMedia(e, fs, absolute, [raw]);
      && (IsVideoFile(p) ==>
            r == Loaded(e.(video := e.video.(queue := e.video.queue + [p])), ["Video: " + p], []))
      && (IsAudioFile(p) ==>
            r == Loaded(e.(audio := e.audio.(queue := e.audio.queue + [p])), ["Audio: " + p], []))
      && (!IsVideoFile(p) && !IsAudioFile(p) ==>
            r == Loaded(e, [], ["Unsupported file format: " + p]))
  {
    Loading.LoadRegularFile(fs, absolute, Classify, e.video.queue, e.audio.queue, raw);
  }

  /** A path that is neither a file nor a directory yields one "not found" error
      and changes nothing. */
  lemma LoadMissingPath(e: Engine, fs: Loading.FileSystem, absolute: string -> string, raw: string)
    requires Loading.Lookup(fs, absolute(raw)) == Loading.Missing
    ensures LoadMedia(e, fs, absolute, [raw]) == Loaded(e, [], ["File or directory not found: " + absolute(raw)])
  {
    Loading.LoadMissingPath(fs, absolute, Classify, e.video.queue, e.audio.queue, raw);
  }

  // ----- Starting and stopping -----

  /** `start_streaming`: start each medium that is not playing and has a
      non-empty queue, video first. Only the playing and stop flags change:
      queues, loop flags, current items, handles and registries are kept. */
  function StartStreaming(e: Engine): (r: Effect)
    ensures r.engine.video.playing <==> e.video.playing || |e.video.queue| > 0
    ensures r.engine.audio.playing <==> e.audio.playing || |e.audio.queue| > 0
    ensures CanStart(e.video) ==> !r.engine.video.stopRequested
    ensures CanStart(e.audio) ==> !r.engine.audio.stopRequested
    ensures r.engine.video == e.video.(playing := r.engine.video.playing, stopRequested := r.engine.video.stopRequested)
    ensures r.engine.audio == e.audio.(playing := r.engine.audio.playing, stopRequested := r.engine.audio.stopRequested)
    ensures r.engine.statusCallbacks == e.statusCallbacks && r.engine.errorCallbacks == e.errorCallbacks
    ensures |r.notices| == (if CanStart(e.video) then 1 else 0) + (if CanStart(e.audio) then 1 else 0)
  {
    var v := Start(Video, e.video);
    var a := Start(Audio, e.audio);
    Effect(e.(video := v.medium, audio := a.medium), v.notices + a.notices)
  }

  /** Starting twice in a row is starting once: the second call finds every
      startable medium playing and does nothing. */
  lemma StartStreamingIdempotent(e: Engine)
    ensures var once := StartStreaming(e).engine;
      StartStreaming(once) == Effect(once, [])
  {
    StartIdempotent(Video, e.video);
    StartIdempotent(Audio, e.audio);
  }

  /** A medium with an empty queue is never started. */
  lemma StartWithEmptyQueue(e: Engine)
    ensures !e.video.playing && |e.video.queue| == 0 ==> StartStreaming(e).engine.video == e.video
    ensures !e.audio.playing && |e.audio.queue| == 0 ==> StartStreaming(e).engine.audio == e.audio
  {
  }

  /** `stop_streaming` when both joins time out: stop video, then audio, with
      the workers left to exit later. Afterwards neither medium is playing; a
      medium that was playing has its stop flag raised and its handles
      released; a medium that was not is untouched. Queues, loop flags and the
      current items are kept. */
  function StopStreaming(e: Engine): (r: Effect)
    ensures !r.engine.video.playing && !r.engine.audio.playing
    ensures e.video.playing ==> HandlesReleased(r.engine.video) && r.engine.video.stopRequested
    ensures e.audio.playing ==> HandlesReleased(r.engine.audio) && r.engine.audio.stopRequested
    ensures !e.video.playing ==> r.engine.video == e.video
    ensures !e.audio.playing ==> r.engine.audio == e.audio
    ensures r.engine.video.queue == e.video.queue && r.engine.audio.queue == e.audio.queue
    ensures r.engine.video.current == e.video.current && r.engine.audio.current == e.audio.current
    ensures r.engine.statusCallbacks == e.statusCallbacks && r.engine.errorCallbacks == e.errorCallbacks
    ensures |r.notices| == (if e.video.playing then 1 else 0) + (if e.audio.playing then 1 else 0)
  {
    var v := Stop(Video, e.video);
    var a := Stop(Audio, e.audio);
    Effect(e.(video := v.medium, audio := a.medium), v.notices + a.notices)
  }

  /** `stop_streaming` when both joins return in time: each worker exits inside
      its join (`videoInFlight`, `audioInFlight` say what it was doing when the
      flag was raised), then its handles are released. Afterwards neither medium
      is playing; each medium that was playing has its flag raised, its handles
      released and emits its worker's "ended" before the controller's "stopped"
      (`StopVideoJoined`, `StopAudioJoined`); an idle medium is untouched; loop
      flags and the registries are kept. */
  function StopStreamingJoined(e: Engine, videoInFlight: Option<VideoPlayback>,
                               audioInFlight: Option<AudioPlayback>): (r: Effect)
    ensures !r.engine.video.playing && !r.engine.audio.playing
    ensures e.video.playing ==> HandlesReleased(r.engine.video) && r.engine.video.stopRequested
    ensures e.audio.playing ==> HandlesReleased(r.engine.audio) && r.engine.audio.stopRequested
    ensures !e.video.playing ==> r.engine.video == e.video
    ensures !e.audio.playing ==> r.engine.audio == e.audio
    ensures r.engine.video.loop == e.video.loop && r.engine.audio.loop == e.audio.loop
    ensures r.engine.statusCallbacks == e.statusCallbacks && r.engine.errorCallbacks == e.errorCallbacks
  {
    var v := StopVideoJoined(e.video, videoInFlight);
    var a := StopAudioJoined(e.audio, audioInFlight);
    Effect(e.(video := v.medium, audio := a.medium), v.notices + a.notices)
  }

  /** A stop whose join returns while a looping video is mid-item: status then
      shows the video not playing, the same queue size as at the loop check
      before the item was taken (the item is back at the tail), and that item as
      the current one. */
  lemma StatusAfterJoinedStop(e: Engine, audioInFlight: Option<AudioPlayback>)
    requires e.video.playing && e.video.loop && |e.video.queue| > 0 && e.video.queue[0] != ""
    ensures var s := GetStatus(StopStreamingJoined(e, Some(Interrupted), audioInFlight).engine);
      && !s.video.playing
      && s.video.queueSize == |e.video.queue|
      && s.video.current == Some(e.video.queue[0])
  {
    StopInterruptsLoopingVideo(e.video);
  }

  /** A joined stop never adds a queue item, and keeps exactly the items of a
      looping video queue (in loop mode the video worker's `finally` puts the
      interrupted item back). */
  lemma JoinedStopKeepsItems(e: Engine, v: Option<VideoPlayback>, a: Option<AudioPlayback>)
    ensures var r := StopStreamingJoined(e, v, a).engine;
      && multiset(r.video.queue) <= multiset(e.video.queue)
      && multiset(r.audio.queue) <= multiset(e.audio.queue)
      && (e.video.loop && NoEmptyPath(e.video.queue) ==> multiset(r.video.queue) == multiset(e.video.queue))
  {
    if e.video.playing {
      VideoExitItems(e.video.(stopRequested := true), v);
    }
    if e.audio.playing {
      AudioExitNeverAdds(e.audio.(stopRequested := true), a);
    }
  }

  /** Stopping with joins that return and starting again plays exactly the
      media whose queue the stop left non-empty. A looping video with something
      queued is always restarted, because its items survive the stop. */
  lemma RestartAfterJoinedStop(e: Engine, v: Option<VideoPlayback>, a: Option<AudioPlayback>)
    ensures var s := StopStreamingJoined(e, v, a).engine;
      var r := StartStreaming(s).engine;
      && (r.video.playing <==> |s.video.queue| > 0)
      && (r.audio.playing <==> |s.audio.queue| > 0)
      && (e.video.loop && NoEmptyPath(e.video.queue) ==> (r.video.playing <==> |e.video.queue| > 0))
  {
    var s := StopStreamingJoined(e, v, a).engine;
    JoinedStopKeepsItems(e, v, a);
    if e.video.loop && NoEmptyPath(e.video.queue) {
      assert |multiset(s.video.queue)| == |multiset(e.video.queue)|;
    }
  }

  /** Unlike a looping video, a looping audio item interrupted by a joined stop
      is dropped, so stopping and starting again leaves a one-item audio queue
      idle. */
  lemma RestartDropsInterruptedAudio(e: Engine, v: Option<VideoPlayback>, frames: nat, stopAt: Option<nat>)
    requires e.audio.playing && e.audio.loop && |e.audio.queue| == 1 && Chunking.StopSeen(frames, stopAt)
    ensures var r := StartStreaming(StopStreamingJoined(e, v, Some(Played(frames, stopAt))).engine).engine;
      !r.audio.playing && r.audio.queue == []
  {
    StopInterruptsLoopingAudio(e.audio, frames, stopAt);
  }

  lemma StopStreamingIdempotent(e: Engine)
    ensures var once := StopStreaming(e).engine;
      StopStreaming(once) == Effect(once, [])
  {
  }

  /** Stopping and starting again restarts exactly the media with something
      queued, with their stop flags cleared. */
  lemma RestartAfterStop(e: Engine)
    ensures var r := StartStreaming(StopStreaming(e).engine).engine;
      && (r.video.playing <==> |e.video.queue| > 0)
      && (r.audio.playing <==> |e.audio.queue| > 0)
      && (|e.video.queue| > 0 ==> !r.video.stopRequested)
      && (|e.audio.queue| > 0 ==> !r.audio.stopRequested)
  {
  }

  /** `set_video_loop` / `set_audio_loop`. */
  function SetLoop(e: Engine, k: Kind, on: bool): Engine
  {
    match k
    case Video => e.(video := e.video.(loop := on))
    case Audio => e.(audio := e.audio.(loop := on))
  }

  // ----- Status -----

  datatype MediumStatus = MediumStatus(playing: bool, current: Option<string>, queueSize: nat, loop: bool)
  datatype EngineStatus = EngineStatus(video: MediumStatus, audio: MediumStatus)

  function Report(m: Medium): MediumStatus
  {
    MediumStatus(m.playing, m.current, |m.queue|, m.loop)
  }

  /** `get_status`. */
  function GetStatus(e: Engine): EngineStatus
  {
    EngineStatus(Report(e.video), Report(e.audio))
  }

  /** After a stop both media report not playing, with queue sizes, loop flags
      and current items as before the stop (the current item is not cleared). */
  lemma StatusAfterStop(e: Engine)
    ensures var s := GetStatus(StopStreaming(e).engine);
      && !s.video.playing && !s.audio.playing
      && s.video.queueSize == |e.video.queue| && s.audio.queueSize == |e.audio.queue|
      && s.video.current == e.video.current && s.audio.current == e.audio.current
      && s.video.loop == e.video.loop && s.audio.loop == e.audio.loop
  {
  }

  /** With loop mode and one queued video, status polled across a completed
      cycle shows the same queue size and that video as the current item. */
  lemma StatusAcrossLoopCycle(e: Engine, p: string)
    requires e.video.loop && e.video.queue == [p] && p != ""
    ensures var after := e.(video := VideoIteration(e.video, false, Ended).medium);
      && GetStatus(after).video.queueSize == GetStatus(e).video.queueSize
      && GetStatus(after).video.current == Some(p)
  {
    SingleItemLoopCycle(e.video, p, 0);
  }

  // ----- Observers -----

  function RegisterStatusCallback(e: Engine, c: Callback): (r: Engine)
    ensures r == e.(statusCallbacks := r.statusCallbacks)
    ensures c in r.statusCallbacks && e.statusCallbacks <= r.statusCallbacks
    ensures c in e.statusCallbacks ==> r == e
    ensures c !in e.statusCallbacks ==> r.statusCallbacks[|r.statusCallbacks| - 1] == c
  {
    e.(statusCallbacks := Register(e.statusCallbacks, c))
  }

  function RegisterErrorCallback(e: Engine, c: Callback): (r: Engine)
    ensures r == e.(errorCallbacks := r.errorCallbacks)
    ensures c in r.errorCallbacks && e.errorCallbacks <= r.errorCallbacks
    ensures c in e.errorCallbacks ==> r == e
    ensures c !in e.errorCallbacks ==> r.errorCallbacks[|r.errorCallbacks| - 1] == c
  {
    e.(errorCallbacks := Register(e.errorCallbacks, c))
  }

  /** Deliver one notice: a status goes to every status callback, an error to
      every error callback, in registration order; `raises` says which callbacks
      raise, and a raising callback does not keep the others from being called. */
  method Publish(e: Engine, n: Notice, raises: Callback -> bool) returns (calls: seq<Call<Callback>>)
    ensures var observers := if n.Status? then e.statusCallbacks else e.errorCallbacks;
      && |calls| == |observers|
      && forall i | 0 <= i < |calls| :: calls[i] == Call(observers[i], n.text, raises(observers[i]))
  {
    if n.Status? {
      calls := Notify(e.statusCallbacks, n.text, raises);
    } else {
      calls := Notify(e.errorCallbacks, n.text, raises);
    }
  }

  /** `cleanup` when both joins time out: stop streaming, then empty both
      registries. */
  function Cleanup(e: Engine): (r: Effect)
    ensures r.engine.statusCallbacks == [] && r.engine.errorCallbacks == []
    ensures !r.engine.video.playing && !r.engine.audio.playing
    ensures r.engine.video.queue == e.video.queue && r.engine.audio.queue == e.audio.queue
  {
    var s := StopStreaming(e);
    Effect(s.engine.(statusCallbacks := [], errorCallbacks := []), s.notices)
  }

  /** `cleanup` when both joins return in time: the workers exit inside the
      stop, then both registries are emptied. No queue gains an item, and a
      looping video queue keeps its items, though the interrupted item moves to
      the tail. */
  function CleanupJoined(e: Engine, v: Option<VideoPlayback>, a: Option<AudioPlayback>): (r: Effect)
    ensures r.engine.statusCallbacks == [] && r.engine.errorCallbacks == []
    ensures !r.engine.video.playing && !r.engine.audio.playing
    ensures multiset(r.engine.video.queue) <= multiset(e.video.queue)
    ensures multiset(r.engine.audio.queue) <= multiset(e.audio.queue)
    ensures e.video.loop && NoEmptyPath(e.video.queue) ==> multiset(r.engine.video.queue) == multiset(e.video.queue)
  {
    var s := StopStreamingJoined(e, v, a);
    JoinedStopKeepsItems(e, v, a);
    Effect(s.engine.(statusCallbacks := [], errorCallbacks := []), s.notices)
  }

  // ----- The invariant is kept -----

  lemma LoadMediaKeepsValid(e: Engine, fs: Loading.FileSystem, absolute: string -> string, paths: seq<string>)
    requires Valid(e)
    ensures Valid(LoadMedia(e, fs, absolute, paths).engine)
  {
    var r := LoadMedia(e, fs, absolute, paths).engine;
    forall i | 0 <= i < |r.video.queue|
      ensures IsVideoFile(r.video.queue[i])
    {
      if i < |e.video.queue| {
        assert r.video.queue[i] == e.video.queue[i];
      }
    }
    forall i | 0 <= i < |r.audio.queue|
      ensures IsAudioFile(r.audio.queue[i])
    {
      if i < |e.audio.queue| {
        assert r.audio.queue[i] == e.audio.queue[i];
      }
    }
  }

  /** Starting, stopping, cleaning up and switching loop mode keep the invariant. */
  lemma StreamingKeepsValid(e: Engine, k: Kind, on: bool)
    requires Valid(e)
    ensures Valid(StartStreaming(e).engine)
    ensures Valid(StopStreaming(e).engine)
    ensures Valid(Cleanup(e).engine)
    ensures Valid(SetLoop(e, k, on))
  {
  }

  /** Registration keeps both registries free of duplicates. */
  lemma RegistrationKeepsValid(e: Engine, c: Callback)
    requires Valid(e)
    ensures Valid(RegisterStatusCallback(e, c))
    ensures Valid(RegisterErrorCallback(e, c))
  {
  }

  /** A video iteration keeps the invariant: the item only ever returns to the
      queue it was taken from, and both handles are released by the end of the
      iteration. */
  lemma VideoIterationKeepsValid(e: Engine, stop: bool, v: VideoPlayback)
    requires Valid(e)
    ensures Valid(e.(video := VideoIteration(e.video, stop, v).medium))
  {
    var q := e.video.queue;
    var vq := VideoIteration(e.video, stop, v).medium.queue;
    if !stop && |q| > 0 {
      assert vq == q[1..] || vq == q[1..] + [q[0]];
    }
    forall i | 0 <= i < |vq|
      ensures IsVideoFile(vq[i])
    {
      assert vq[i] in q;
    }
  }

  /** The same for an audio iteration. */
  lemma AudioIterationKeepsValid(e: Engine, stop: bool, a: AudioPlayback)
    requires Valid(e)
    ensures Valid(e.(audio := AudioIteration(e.audio, stop, a).medium))
  {
    var q := e.audio.queue;
    var aq := AudioIteration(e.audio, stop, a).medium.queue;
    if !stop && |q| > 0 {
      assert aq == q[1..] || aq == q[1..] + [q[0]];
    }
    forall i | 0 <= i < |aq|
      ensures IsAudioFile(aq[i])
    {
      assert aq[i] in q;
    }
  }
}

=== FILE: decoding.dfy ===
/** The shape of the buffer the audio worker decodes and hands to the sink.
    Samples themselves are not modelled; only the array's dimensions are. The
    sink is always opened with `SinkChannels` channels. */
module Decoding {

  const SinkChannels: nat := 2

  /** A decoded sample array: `ndim` is the number of array dimensions, `frames`
      the length of the first axis, `channels` the length of the second. */
  datatype Buffer = Buffer(ndim: nat, frames: nat, channels: nat)

  /** Reading with `always_2d=True`: the result is two-dimensional whatever the
      file holds, with one column per channel of the file. */
  function ReadAlways2d(fileChannels: nat, frames: nat): (b: Buffer)
    ensures b.frames == frames
  {
    Buffer(2, frames, fileChannels)
  }

  /** Stereo widening as written: duplicate the data into two columns only when
      the array is one-dimensional. */
  function WidenAsWritten(b: Buffer): (r: Buffer)
    ensures r.frames == b.frames
    ensures b.ndim != 1 ==> r == b
  {
    if b.ndim == 1 then Buffer(2, b.frames, 2) else b
  }

  /** Decoding as written: read, then widen. */
  function DecodeAsWritten(fileChannels: nat, frames: nat): (b: Buffer)
    ensures b.channels == fileChannels && b.frames == frames
  {
    WidenAsWritten(ReadAlways2d(fileChannels, frames))
  }

  /** A mono file reaches the two-channel sink with one channel: the read never
      yields a one-dimensional array, so the widening step never applies. */
  lemma MonoNotWidenedAsWritten(frames: nat)
    ensures DecodeAsWritten(1, frames).channels == 1
    ensures DecodeAsWritten(1, frames).channels != SinkChannels
  {
  }

  /** Stereo widening as intended: a single column is duplicated into two. */
  function Widen(b: Buffer): (r: Buffer)
    ensures r.frames == b.frames && r.ndim == b.ndim
  {
    if b.channels == 1 then b.(channels := 2) else b
  }

  function Decode(fileChannels: nat, frames: nat): Buffer
  {
    Widen(ReadAlways2d(fileChannels, frames))
  }

  /** With the intended widening, mono and stereo files both reach the sink as
      two-channel, two-dimensional buffers of the file's length. */
  lemma DecodeFitsSink(fileChannels: nat, frames: nat)
    requires fileChannels == 1 || fileChannels == 2
    ensures Decode(fileChannels, frames) == Buffer(2, frames, SinkChannels)
  {
  }
}

=== FILE: loading.dfy ===
/** `load_media`: every given path is resolved to an absolute path and looked up;
    a regular file is classified and queued, a directory contributes the media
    files its recursive search finds, and anything else is reported as missing.
    Queues only ever grow, at their tails, in discovery order.

    Every function here takes the classifier as a parameter `kindOf`; the engine
    passes `Media.Classify`, so the properties proved here hold for it and, being
    proved for any classifier, do not depend on the extension tables. */
module Loading {

  import opened Options
  import opened Media

  /** What the file system holds at an absolute path. `Directory.found` is the
      sequence of paths the recursive search of that directory yields, already
      absolute, in the order the search produces them. `Missing` stands for
      everything that is neither a regular file nor a directory. */
  datatype Node = RegularFile | Directory(found: seq<string>) | Missing

  type FileSystem = map<string, Node>

  function Lookup(fs: FileSystem, p: string): Node
  {
    if p in fs then fs[p] else Missing
  }

  /** The two queues and the two lists `load_media` builds. */
  datatype Load = Load(video: seq<string>, audio: seq<string>, loaded: seq<string>, errors: seq<string>)

  /** The `loaded` entry recorded for a queued path. */
  function Entry(k: Kind, p: string): string
  {
    match k
    case Video => "Video: " + p
    case Audio => "Audio: " + p
  }

  function UnsupportedError(p: string): string
  {
    "Unsupported file format: " + p
  }

  function NotFoundError(p: string): string
  {
    "File or directory not found: " + p
  }

  /** Queue one classified path; a path of no known medium is passed over
      silently (what happens to search results). */
  function Enqueue(kindOf: string -> Option<Kind>, acc: Load, p: string): Load
  {
    match kindOf(p)
    case Some(Video) => acc.(video := acc.video + [p], loaded := acc.loaded + [Entry(Video, p)])
    case Some(Audio) => acc.(audio := acc.audio + [p], loaded := acc.loaded + [Entry(Audio, p)])
    case None => acc
  }

  function EnqueueAll(kindOf: string -> Option<Kind>, acc: Load, found: seq<string>): Load
    decreases |found|
  {
    if |found| == 0 then acc
    else EnqueueAll(kindOf, Enqueue(kindOf, acc, found[0]), found[1..])
  }

  /** One path of the argument list, after resolution to an absolute path. */
  function LoadPath(fs: FileSystem, absolute: string -> string, kindOf: string -> Option<Kind>, acc: Load, raw: string): Load
  {
    var p := absolute(raw);
    match Lookup(fs, p)
    case RegularFile =>
      if kindOf(p).Some? then Enqueue(kindOf, acc, p)
      else acc.(errors := acc.errors + [UnsupportedError(p)])
    case Directory(found) => EnqueueAll(kindOf, acc, found)
    case Missing => acc.(errors := acc.errors + [NotFoundError(p)])
  }

  function LoadPaths(fs: FileSystem, absolute: string -> string, kindOf: string -> Option<Kind>, acc: Load, paths: seq<string>): (r: Load)
    ensures acc.video <= r.video && acc.audio <= r.audio
    ensures acc.loaded <= r.loaded && acc.errors <= r.errors
    ensures |r.video| - |acc.video| + |r.audio| - |acc.audio| == |r.loaded| - |acc.loaded|
    ensures forall i | |acc.video| <= i < |r.video| :: kindOf(r.video[i]) == Some(Video)
    ensures forall i | |acc.audio| <= i < |r.audio| :: kindOf(r.audio[i]) == Some(Audio)
    decreases |paths|
  {
    if |paths| == 0 then acc
    else
      var next := LoadPath(fs, absolute, kindOf, acc, paths[0]);
      LoadPathGrows(fs, absolute, kindOf, acc, paths[0]);
      LoadPaths(fs, absolute, kindOf, next, paths[1..])
  }

  /** `load_media(paths)` on queues `video` and `audio`; `absolute` stands for the
      resolution of a path against the working directory. The result carries the
      new queues and the `(loaded, errors)` pair. */
  function LoadMedia(fs: FileSystem, absolute: string -> string, kindOf: string -> Option<Kind>, video: seq<string>, audio: seq<string>,
                     paths: seq<string>): (r: Load)
    ensures video <= r.video && audio <= r.audio
    ensures |r.video| - |video| + |r.audio| - |audio| == |r.loaded|
    ensures forall i | |video| <= i < |r.video| :: kindOf(r.video[i]) == Some(Video)
    ensures forall i | |audio| <= i < |r.audio| :: kindOf(r.audio[i]) == Some(Audio)
  {
    LoadPaths(fs, absolute, kindOf, Load(video, audio, [], []), paths)
  }

  /** One step only appends, and appends a path to the queue of its medium with
      one entry per queued path. */
  lemma LoadPathGrows(fs: FileSystem, absolute: string -> string, kindOf: string -> Option<Kind>, acc: Load, raw: string)
    ensures var r := LoadPath(fs, absolute, kindOf, acc, raw);
      && acc.video <= r.video && acc.audio <= r.audio
      && acc.loaded <= r.loaded && acc.errors <= r.errors
      && |r.video| - |acc.video| + |r.audio| - |acc.audio| == |r.loaded| - |acc.loaded|
      && (forall i | |acc.video| <= i < |r.video| :: kindOf(r.video[i]) == Some(Video))
      && (forall i | |acc.audio| <= i < |r.audio| :: kindOf(r.audio[i]) == Some(Audio))
  {
    var p := absolute(raw);
    match Lookup(fs, p)
    case RegularFile =>
    case Directory(found) =>
      EnqueueAllMeaning(kindOf, acc, found);
      PickEntriesCount(kindOf, found);
      PickKind(kindOf, Video, found);
      PickKind(kindOf, Audio, found);
    case Missing =>
  }

  // ----- Reference definition: what a load call discovers -----

  /** The paths of one argument that reach classification: the path itself when
      it is a regular file, the search results when it is a directory. */
  function Candidates(fs: FileSystem, absolute: string -> string, raw: string): seq<string>
  {
    var p := absolute(raw);
    match Lookup(fs, p)
    case RegularFile => [p]
    case Directory(found) => found
    case Missing => []
  }

  /** All candidates of an argument list, in discovery order. */
  function Discovered(fs: FileSystem, absolute: string -> string, paths: seq<string>): seq<string>
    decreases |paths|
  {
    if |paths| == 0 then [] else Candidates(fs, absolute, paths[0]) + Discovered(fs, absolute, paths[1..])
  }

  /** The error messages of one argument: an unsupported regular file or a path
      that is neither file nor directory. Search results never produce errors. */
  function ErrorsOf(fs: FileSystem, absolute: string -> string, kindOf: string -> Option<Kind>, raw: string): seq<string>
  {
    var p := absolute(raw);
    match Lookup(fs, p)
    case RegularFile => if kindOf(p).Some? then [] else [UnsupportedError(p)]
    case Directory(_) => []
    case Missing => [NotFoundError(p)]
  }

  function Errors(fs: FileSystem, absolute: string -> string, kindOf: string -> Option<Kind>, paths: seq<string>): seq<string>
    decreases |paths|
  {
    if |paths| == 0 then [] else ErrorsOf(fs, absolute, kindOf, paths[0]) + Errors(fs, absolute, kindOf, paths[1..])
  }

  /** The candidates of medium `k`, in order. */
  function Pick(kindOf: string -> Option<Kind>, k: Kind, ps: seq<string>): seq<string>
    decreases |ps|
  {
    if |ps| == 0 then []
    else (if kindOf(ps[0]) == Some(k) then [ps[0]] else []) + Pick(kindOf, k, ps[1..])
  }

  /** The `loaded` entry of a candidate, if it has a medium. */
  function EntryOf(kindOf: string -> Option<Kind>, p: string): seq<string>
  {
    match kindOf(p)
    case Some(k) => [Entry(k, p)]
    case None => []
  }

  /** The `loaded` entries of the classified candidates, in order. */
  function Entries(kindOf: string -> Option<Kind>, ps: seq<string>): seq<string>
    decreases |ps|
  {
    if |ps| == 0 then [] else EntryOf(kindOf, ps[0]) + Entries(kindOf, ps[1..])
  }

  lemma {:induction false} PickAppend(kindOf: string -> Option<Kind>, k: Kind, a: seq<string>, b: seq<string>)
    ensures Pick(kindOf, k, a + b) == Pick(kindOf, k, a) + Pick(kindOf, k, b)
    decreases |a|
  {
    if |a| > 0 {
      assert (a + b)[0] == a[0] && (a + b)[1..] == a[1..] + b;
      PickAppend(kindOf, k, a[1..], b);
      var h := if kindOf(a[0]) == Some(k) then [a[0]] else [];
      assert h + (Pick(kindOf, k, a[1..]) + Pick(kindOf, k, b)) == (h + Pick(kindOf, k, a[1..])) + Pick(kindOf, k, b);
    } else {
      assert a + b == b;
    }
  }

  lemma {:induction false} EntriesAppend(kindOf: string -> Option<Kind>, a: seq<string>, b: seq<string>)
    ensures Entries(kindOf, a + b) == Entries(kindOf, a) + Entries(kindOf, b)
    decreases |a|
  {
    if |a| > 0 {
      assert (a + b)[0] == a[0] && (a + b)[1..] == a[1..] + b;
      EntriesAppend(kindOf, a[1..], b);
      var h := EntryOf(kindOf, a[0]);
      assert h + (Entries(kindOf, a[1..]) + Entries(kindOf, b)) == (h + Entries(kindOf, a[1..])) + Entries(kindOf, b);
    } else {
      assert a + b == b;
    }
  }

  /** Queueing search results appends exactly their video paths, their audio
      paths and their entries, in order, and reports nothing. */
  lemma {:induction false} EnqueueAllMeaning(kindOf: string -> Option<Kind>, acc: Load, found: seq<string>)
    ensures EnqueueAll(kindOf, acc, found)
      == Load(acc.video + Pick(kindOf, Video, found), acc.audio + Pick(kindOf, Audio, found),
              acc.loaded + Entries(kindOf, found), acc.errors)
    decreases |found|
  {
    if |found| > 0 {
      EnqueueAllMeaning(kindOf, Enqueue(kindOf, acc, found[0]), found[1..]);
    }
  }

  lemma LoadPathMeaning(fs: FileSystem, absolute: string -> string, kindOf: string -> Option<Kind>, acc: Load, raw: string)
    ensures var c := Candidates(fs, absolute, raw);
      LoadPath(fs, absolute, kindOf, acc, raw)
      == Load(acc.video + Pick(kindOf, Video, c), acc.audio + Pick(kindOf, Audio, c),
              acc.loaded + Entries(kindOf, c), acc.errors + ErrorsOf(fs, absolute, kindOf, raw))
  {
    var p := absolute(raw);
    match Lookup(fs, p)
    case RegularFile =>
      assert Candidates(fs, absolute, raw)[1..] == [];
    case Directory(found) =>
      EnqueueAllMeaning(kindOf, acc, found);
    case Missing =>
  }

  /** The queue of medium `k`. */
  function Queue(r: Load, k: Kind): seq<string>
  {
    match k
    case Video => r.video
    case Audio => r.audio
  }

  /** One step of the argument list, on both sides of the reference. */
  lemma LoadPathsStep(fs: FileSystem, absolute: string -> string, kindOf: string -> Option<Kind>, acc: Load, paths: seq<string>)
    requires |paths| > 0
    ensures LoadPaths(fs, absolute, kindOf, acc, paths)
         == LoadPaths(fs, absolute, kindOf, LoadPath(fs, absolute, kindOf, acc, paths[0]), paths[1..])
    ensures Discovered(fs, absolute, paths) == Candidates(fs, absolute, paths[0]) + Discovered(fs, absolute, paths[1..])
  {
  }

  lemma {:induction false} LoadPathsQueue(fs: FileSystem, absolute: string -> string, kindOf: string -> Option<Kind>,
                                          acc: Load, paths: seq<string>, k: Kind)
    ensures Queue(LoadPaths(fs, absolute, kindOf, acc, paths), k)
         == Queue(acc, k) + Pick(kindOf, k, Discovered(fs, absolute, paths))
    decreases |paths|
  {
    if |paths| > 0 {
      var c := Candidates(fs, absolute, paths[0]);
      var rest := Discovered(fs, absolute, paths[1..]);
      var next := LoadPath(fs, absolute, kindOf, acc, paths[0]);
      LoadPathMeaning(fs, absolute, kindOf, acc, paths[0]);
      LoadPathsQueue(fs, absolute, kindOf, next, paths[1..], k);
      PickAppend(kindOf, k, c, rest);
      LoadPathsStep(fs, absolute, kindOf, acc, paths);
      var q, pc, pr := Queue(acc, k), Pick(kindOf, k, c), Pick(kindOf, k, rest);
      assert Queue(next, k) == q + pc;
      assert q + pc + pr == q + (pc + pr);
    }
  }

  lemma {:induction false} LoadPathsLoaded(fs: FileSystem, absolute: string -> string, kindOf: string -> Option<Kind>,
                                           acc: Load, paths: seq<string>)
    ensures LoadPaths(fs, absolute, kindOf, acc, paths).loaded
         == acc.loaded + Entries(kindOf, Discovered(fs, absolute, paths))
    decreases |paths|
  {
    if |paths| > 0 {
      var c := Candidates(fs, absolute, paths[0]);
      var rest := Discovered(fs, absolute, paths[1..]);
      var next := LoadPath(fs, absolute, kindOf, acc, paths[0]);
      LoadPathMeaning(fs, absolute, kindOf, acc, paths[0]);
      LoadPathsLoaded(fs, absolute, kindOf, next, paths[1..]);
      EntriesAppend(kindOf, c, rest);
      LoadPathsStep(fs, absolute, kindOf, acc, paths);
      var ec, er := Entries(kindOf, c), Entries(kindOf, rest);
      assert next.loaded == acc.loaded + ec;
      assert acc.loaded + ec + er == acc.loaded + (ec + er);
    }
  }

  lemma {:induction false} LoadPathsErrors(fs: FileSystem, absolute: string -> string, kindOf: string -> Option<Kind>,
                                           acc: Load, paths: seq<string>)
    ensures LoadPaths(fs, absolute, kindOf, acc, paths).errors == acc.errors + Errors(fs, absolute, kindOf, paths)
    decreases |paths|
  {
    if |paths| > 0 {
      var next := LoadPath(fs, absolute, kindOf, acc, paths[0]);
      LoadPathMeaning(fs, absolute, kindOf, acc, paths[0]);
      LoadPathsErrors(fs, absolute, kindOf, next, paths[1..]);
      assert next.errors == acc.errors + ErrorsOf(fs, absolute, kindOf, paths[0]);
    }
  }

  /** What `load_media` does, against the reference: each queue gains the
      discovered paths of its medium in discovery order, `loaded` lists one entry
      per queued path in discovery order, and `errors` lists one message per
      unsupported file or missing path in argument order. */
  lemma LoadMediaMeaning(fs: FileSystem, absolute: string -> string, kindOf: string -> Option<Kind>, video: seq<string>, audio: seq<string>,
                         paths: seq<string>)
    ensures var d := Discovered(fs, absolute, paths);
      LoadMedia(fs, absolute, kindOf, video, audio, paths)
      == Load(video + Pick(kindOf, Video, d), audio + Pick(kindOf, Audio, d), Entries(kindOf, d), Errors(fs, absolute, kindOf, paths))
  {
    var acc := Load(video, audio, [], []);
    LoadPathsQueue(fs, absolute, kindOf, acc, paths, Video);
    LoadPathsQueue(fs, absolute, kindOf, acc, paths, Audio);
    LoadPathsLoaded(fs, absolute, kindOf, acc, paths);
    LoadPathsErrors(fs, absolute, kindOf, acc, paths);
  }

  lemma {:induction false} PickKind(kindOf: string -> Option<Kind>, k: Kind, ps: seq<string>)
    ensures forall i | 0 <= i < |Pick(kindOf, k, ps)| :: kindOf(Pick(kindOf, k, ps)[i]) == Some(k)
    decreases |ps|
  {
    if |ps| > 0 {
      PickKind(kindOf, k, ps[1..]);
    }
  }

  /** Every classified candidate is picked for exactly one medium and has exactly
      one entry. */
  lemma {:induction false} PickEntriesCount(kindOf: string -> Option<Kind>, ps: seq<string>)
    ensures |Pick(kindOf, Video, ps)| + |Pick(kindOf, Audio, ps)| == |Entries(kindOf, ps)|
    decreases |ps|
  {
    if |ps| > 0 {
      PickEntriesCount(kindOf, ps[1..]);
    }
  }

  /** An existing regular file is handled in exactly one of three ways: queued as
      video with one "Video: " entry, queued as audio with one "Audio: " entry, or
      reported as unsupported with both queues unchanged. */
  lemma LoadRegularFile(fs: FileSystem, absolute: string -> string, kindOf: string -> Option<Kind>,
                        video: seq<string>, audio: seq<string>, raw: string)
    requires Lookup(fs, absolute(raw)) == RegularFile
    ensures var p := absolute(raw);
      var r := LoadMedia(fs, absolute, kindOf, video, audio, [raw]);
      && (kindOf(p) == Some(Video) ==> r == Load(video + [p], audio, ["Video: " + p], []))
      && (kindOf(p) == Some(Audio) ==> r == Load(video, audio + [p], ["Audio: " + p], []))
      && (kindOf(p) == None ==> r == Load(video, audio, [], ["Unsupported file format: " + p]))
  {
    assert [raw][0] == raw && [raw][1..] == [];
    var one := LoadPath(fs, absolute, kindOf, Load(video, audio, [], []), raw);
    assert LoadMedia(fs, absolute, kindOf, video, audio, [raw]) == LoadPaths(fs, absolute, kindOf, one, []);
  }

  /** A path that is neither a regular file nor a directory yields exactly one
      "not found" error and changes no queue. */
  lemma LoadMissingPath(fs: FileSystem, absolute: string -> string, kindOf: string -> Option<Kind>,
                        video: seq<string>, audio: seq<string>, raw: string)
    requires Lookup(fs, absolute(raw)) == Missing
    ensures LoadMedia(fs, absolute, kindOf, video, audio, [raw])
         == Load(video, audio, [], ["File or directory not found: " + absolute(raw)])
  {
    assert [raw][0] == raw && [raw][1..] == [];
    var one := LoadPath(fs, absolute, kindOf, Load(video, audio, [], []), raw);
    assert LoadMedia(fs, absolute, kindOf, video, audio, [raw]) == LoadPaths(fs, absolute, kindOf, one, []);
  }

  /** A directory never produces an error: its search results are queued by
      medium and the rest are passed over. */
  lemma LoadDirectory(fs: FileSystem, absolute: string -> string, kindOf: string -> Option<Kind>,
                      video: seq<string>, audio: seq<string>, raw: string)
    requires Lookup(fs, absolute(raw)).Directory?
    ensures var found := Lookup(fs, absolute(raw)).found;
      LoadMedia(fs, absolute, kindOf, video, audio, [raw])
      == Load(video + Pick(kindOf, Video, found), audio + Pick(kindOf, Audio, found), Entries(kindOf, found), [])
  {
    assert [raw][0] == raw && [raw][1..] == [];
    var one := LoadPath(fs, absolute, kindOf, Load(video, audio, [], []), raw);
    assert LoadMedia(fs, absolute, kindOf, video, audio, [raw]) == LoadPaths(fs, absolute, kindOf, one, []);
    EnqueueAllMeaning(kindOf, Load(video, audio, [], []), Lookup(fs, absolute(raw)).found);
  }

  /** The absolute forms of an argument list. */
  function Absolutes(absolute: string -> string, paths: seq<string>): seq<string>
  {
    seq(|paths|, i requires 0 <= i < |paths| => absolute(paths[i]))
  }

  lemma {:induction false} SupportedFilesDiscovered(fs: FileSystem, absolute: string -> string,
                                                    kindOf: string -> Option<Kind>, paths: seq<string>)
    requires forall i | 0 <= i < |paths| ::
      Lookup(fs, absolute(paths[i])) == RegularFile && kindOf(absolute(paths[i])).Some?
    ensures Discovered(fs, absolute, paths) == Absolutes(absolute, paths)
    ensures Errors(fs, absolute, kindOf, paths) == []
    decreases |paths|
  {
    if |paths| > 0 {
      SupportedFilesDiscovered(fs, absolute, kindOf, paths[1..]);
      assert Absolutes(absolute, paths) == [absolute(paths[0])] + Absolutes(absolute, paths[1..]);
    }
  }

  /** Loading only supported regular files: the queues grow by exactly the given
      files of their medium, in argument order, every file has one entry, and no
      error is reported. */
  lemma LoadSupportedFiles(fs: FileSystem, absolute: string -> string, kindOf: string -> Option<Kind>,
                           video: seq<string>, audio: seq<string>, paths: seq<string>)
    requires forall i | 0 <= i < |paths| ::
      Lookup(fs, absolute(paths[i])) == RegularFile && kindOf(absolute(paths[i])).Some?
    ensures var r := LoadMedia(fs, absolute, kindOf, video, audio, paths);
      var ps := Absolutes(absolute, paths);
      && r.video == video + Pick(kindOf, Video, ps)
      && r.audio == audio + Pick(kindOf, Audio, ps)
      && |r.loaded| == |paths|
      && r.errors == []
  {
    LoadMediaMeaning(fs, absolute, kindOf, video, audio, paths);
    SupportedFilesDiscovered(fs, absolute, kindOf, paths);
    AllClassifiedEntries(kindOf, Absolutes(absolute, paths));
  }

  lemma {:induction false} AllClassifiedEntries(kindOf: string -> Option<Kind>, ps: seq<string>)
    requires forall i | 0 <= i < |ps| :: kindOf(ps[i]).Some?
    ensures |Entries(kindOf, ps)| == |ps|
    decreases |ps|
  {
    if |ps| > 0 {
      AllClassifiedEntries(kindOf, ps[1..]);
    }
  }
}

=== FILE: media.dfy ===
/** Media classification: a path is a video or an audio file according to the
    lower-cased suffix of its final component, and nothing else. */
module Media {

  import opened Options
  import opened Paths

  /** The two media of the engine, each with its own queue and worker. */
  datatype Kind = Video | Audio

  const VideoExts: set<string> := {".mp4", ".avi", ".mov", ".mkv", ".webm"}
  const AudioExts: set<string> := {".wav", ".mp3", ".flac", ".ogg", ".aac"}

  predicate IsVideoFile(p: string)
  {
    Lower(Suffix(p)) in VideoExts
  }

  predicate IsAudioFile(p: string)
  {
    Lower(Suffix(p)) in AudioExts
  }

  lemma ExtensionSetsDisjoint()
    ensures VideoExts !! AudioExts
  {
  }

  /** The medium a path is queued on: the video test is applied first, the audio
      test second; `None` for an unsupported suffix. Since the extension sets are
      disjoint, the order of the two tests never decides anything. */
  function Classify(p: string): (k: Option<Kind>)
    ensures k == Some(Video) <==> IsVideoFile(p)
    ensures k == Some(Audio) <==> IsAudioFile(p)
    ensures k == None <==> !IsVideoFile(p) && !IsAudioFile(p)
  {
    ExtensionSetsDisjoint();
    if IsVideoFile(p) then Some(Video)
    else if IsAudioFile(p) then Some(Audio)
    else None
  }

  /** No path is both a video and an audio file. */
  lemma NeverBoth(p: string)
    ensures !(IsVideoFile(p) && IsAudioFile(p))
  {
    ExtensionSetsDisjoint();
  }

  /** Classification ignores letter case: a path and its lower-cased form are
      queued on the same medium. */
  lemma ClassifyIgnoresCase(p: string)
    ensures Classify(Lower(p)) == Classify(p)
  {
    SuffixLower(p);
    LowerIdempotent(Suffix(p));
  }

  /** Paths whose suffixes agree after lower-casing are classified alike, whatever
      else differs between them. */
  lemma ClassifyBySuffixOnly(p: string, q: string)
    ensures Lower(Suffix(p)) == Lower(Suffix(q)) ==> Classify(p) == Classify(q)
  {
  }

  /** A name whose only dot is its first character has no suffix, so the path
      is unsupported whatever follows the dot: ".mp4" is a hidden file's name,
      not an extension. */
  lemma DotOnlyNameIsUnsupported(p: string)
    ensures var n := Name(p);
      |n| > 0 && n[0] == '.' && '.' !in n[1..] ==> Classify(p) == None
  {
    DotOnlyNameHasNoSuffix(Name(p));
    NoSuffixIsUnsupported(p);
  }

  /** A path without a suffix is neither a video nor an audio file. */
  lemma NoSuffixIsUnsupported(p: string)
    ensures Suffix(p) == "" ==> Classify(p) == None
  {
    var x := Lower(Suffix(p));
    if Suffix(p) == "" {
      assert |x| == 0;
      assert x !in VideoExts && x !in AudioExts;
    }
  }

  /** A name that is only an extension has no suffix: "/clips/.mp4" is not a
      video file (the dot is the first character of its name). */
  lemma DotFileIsUnsupported()
    ensures Classify("/clips/.mp4") == None
  {
    assert Name("/clips/.mp4") == ".mp4" by {
      LastIndexIs("/clips/.mp4", '/', 6);
    }
    LastIndexIs(".mp4", '.', 0);
    assert Suffix("/clips/.mp4") == "";
  }

  /** An upper-case extension is recognised: "/clips/Intro.MP4" is a video file. */
  lemma UpperCaseExtensionIsVideo()
    ensures Classify("/clips/Intro.MP4") == Some(Video)
  {
    assert Name("/clips/Intro.MP4") == "Intro.MP4" by {
      LastIndexIs("/clips/Intro.MP4", '/', 6);
    }
    LastIndexIs("Intro.MP4", '.', 5);
    assert Suffix("/clips/Intro.MP4") == ".MP4";
    assert Lower(".MP4") == ".mp4";
  }
}

=== FILE: observers.dfy ===
/** The observer registries of the engine (`status_callbacks`,
    `error_callbacks`) and the fan-out that notifies them. A registry is a list
    without duplicates, kept in registration order. */
module Observers {

  predicate Distinct<C(==)>(s: seq<C>)
  {
    forall i, j | 0 <= i < j < |s| :: s[i] != s[j]
  }

  /** Register an observer: an observer already present is not added again,
      a new one goes to the end. */
  function Register<C(==)>(registry: seq<C>, c: C): (r: seq<C>)
    ensures c in r
    ensures registry <= r && |r| <= |registry| + 1
    ensures c in registry ==> r == registry
    ensures Distinct(registry) ==> Distinct(r)
  {
    if c in registry then registry else registry + [c]
  }

  /** Register several observers, one after the other. */
  function RegisterAll<C(==)>(registry: seq<C>, cs: seq<C>): seq<C>
    decreases |cs|
  {
    if |cs| == 0 then registry else RegisterAll(Register(registry, cs[0]), cs[1..])
  }

  // ----- Reference definition: first occurrences, in order -----

  /** `s` without any occurrence of the elements of `drop`. */
  function Without<C(==)>(s: seq<C>, drop: seq<C>): (r: seq<C>)
    ensures |r| <= |s|
    ensures forall x | x in r :: x in s && x !in drop
    decreases |s|
  {
    if |s| == 0 then []
    else (if s[0] in drop then [] else [s[0]]) + Without(s[1..], drop)
  }

  /** Every element of `s` once, at its first occurrence, in order. */
  function Dedup<C(==)>(s: seq<C>): seq<C>
    decreases |s|
  {
    if |s| == 0 then [] else [s[0]] + Dedup(Without(s[1..], [s[0]]))
  }

  lemma {:induction false} WithoutMore<C>(s: seq<C>, drop: seq<C>, c: C)
    ensures Without(Without(s, drop), [c]) == Without(s, drop + [c])
    decreases |s|
  {
    if |s| > 0 {
      WithoutMore(s[1..], drop, c);
      var h := if s[0] in drop then [] else [s[0]];
      var w := Without(s[1..], drop);
      assert Without(s, drop) == h + w;
      WithoutAppend(h, w, [c]);
    }
  }

  lemma {:induction false} WithoutAppend<C>(a: seq<C>, b: seq<C>, drop: seq<C>)
    ensures Without(a + b, drop) == Without(a, drop) + Without(b, drop)
    decreases |a|
  {
    if |a| > 0 {
      assert (a + b)[0] == a[0] && (a + b)[1..] == a[1..] + b;
      WithoutAppend(a[1..], b, drop);
      var h := if a[0] in drop then [] else [a[0]];
      assert h + (Without(a[1..], drop) + Without(b, drop)) == (h + Without(a[1..], drop)) + Without(b, drop);
    } else {
      assert a + b == b;
    }
  }

  lemma DedupCons<C>(c: C, rest: seq<C>)
    ensures Dedup([c] + rest) == [c] + Dedup(Without(rest, [c]))
  {
    assert ([c] + rest)[0] == c && ([c] + rest)[1..] == rest;
  }

  /** The first observer of the list is new: it is registered at the end and
      dropped from the rest of the list. */
  lemma NewObserverFirst<C>(registry: seq<C>, cs: seq<C>)
    requires |cs| > 0 && cs[0] !in registry
    ensures registry + Dedup(Without(cs, registry))
         == (registry + [cs[0]]) + Dedup(Without(cs[1..], registry + [cs[0]]))
  {
    var c, rest := cs[0], Without(cs[1..], registry);
    assert Without(cs, registry) == [c] + rest;
    DedupCons(c, rest);
    WithoutMore(cs[1..], registry, c);
  }

  /** Registering a list of observers one by one yields the registry followed by
      the first occurrences of the observers it did not yet hold. */
  lemma {:induction false} RegisterAllMeaning<C>(registry: seq<C>, cs: seq<C>)
    ensures RegisterAll(registry, cs) == registry + Dedup(Without(cs, registry))
    decreases |cs|
  {
    if |cs| > 0 {
      RegisterAllMeaning(Register(registry, cs[0]), cs[1..]);
      if cs[0] in registry {
        assert Without(cs, registry) == Without(cs[1..], registry);
      } else {
        NewObserverFirst(registry, cs);
      }
    }
  }

  lemma WithoutNothing<C>(s: seq<C>)
    ensures Without(s, []) == s
  {
    if |s| > 0 {
      WithoutNothing(s[1..]);
    }
  }

  /** From an empty registry, registration keeps exactly the first occurrence
      of each observer, in registration order. */
  lemma RegisterAllFromEmpty<C>(cs: seq<C>)
    ensures RegisterAll([], cs) == Dedup(cs)
  {
    RegisterAllMeaning([], cs);
    WithoutNothing(cs);
  }

  /** Registering the same observer twice is the same as registering it once. */
  lemma RegisterIdempotent<C>(registry: seq<C>, c: C)
    ensures Register(Register(registry, c), c) == Register(registry, c)
  {
  }

  // ----- Notification -----

  /** One invocation of an observer: what it was given and whether it raised. */
  datatype Call<C> = Call(observer: C, message: string, raised: bool)

  /** Notify every observer of `message`, in registry order. `raises` says which
      observers raise on this message; a raising observer is logged and passed
      over, and the fan-out continues with the next one. */
  method Notify<C>(observers: seq<C>, message: string, raises: C -> bool) returns (calls: seq<Call<C>>)
    ensures |calls| == |observers|
    ensures forall i | 0 <= i < |calls| :: calls[i] == Call(observers[i], message, raises(observers[i]))
  {
    calls := [];
    var i := 0;
    while i < |observers|
      invariant 0 <= i <= |observers|
      invariant |calls| == i
      invariant forall j | 0 <= j < i :: calls[j] == Call(observers[j], message, raises(observers[j]))
    {
      var failed := raises(observers[i]);
      calls := calls + [Call(observers[i], message, failed)];
      i := i + 1;
    }
  }
}

=== FILE: options.dfy ===
/** The optional value the engine uses for handles and for the current item
    (Python's `Optional[...]`, with `None` as the absent value). */
module Options {

  datatype Option<T> = None | Some(value: T)
}

=== FILE: paths.dfy ===
/** The parts of path handling the engine relies on: the final component of a
    path, its suffix as `pathlib.PurePath.suffix` defines it, and lower-casing. */
module Paths {

  /** Index of the last occurrence of `c` in `s`, or -1 when there is none
      (Python's `str.rfind`). */
  function LastIndex(s: string, c: char): (i: int)
    ensures -1 <= i < |s|
    ensures i >= 0 ==> s[i] == c
    ensures forall j | i < j < |s| :: s[j] != c
  {
    if |s| == 0 then -1
    else if s[|s| - 1] == c then |s| - 1
    else LastIndex(s[..|s| - 1], c)
  }

  /** `LastIndex` is determined by its contract: an index of `c` with no `c`
      after it is the last index. */
  lemma LastIndexIs(s: string, c: char, i: nat)
    requires i < |s| && s[i] == c
    requires forall j | i < j < |s| :: s[j] != c
    ensures LastIndex(s, c) == i
  {
  }

  /** The final component of a normalised path: everything after the last '/'.
      These are POSIX path rules: '/' is the only separator and there is no
      drive prefix. */
  function Name(p: string): (n: string)
    ensures |n| <= |p| && p[|p| - |n|..] == n
    ensures '/' !in n
    ensures |n| < |p| ==> p[|p| - |n| - 1] == '/'
  {
    p[LastIndex(p, '/') + 1..]
  }

  /** The suffix of a name: from its last '.' on, provided that dot is neither
      the first nor the last character of the name; "" otherwise. The contract
      determines the result: it is non-empty exactly when such a dot exists, and
      then it is the tail of the name from that dot. */
  function NameSuffix(n: string): (x: string)
    ensures x != [] ==> 2 <= |x| && x[0] == '.' && '.' !in x[1..]
    ensures x != [] ==> |x| < |n| && n[|n| - |x|..] == x
    ensures x != [] <==> exists i | 0 < i < |n| - 1 :: n[i] == '.' && '.' !in n[i + 1..]
  {
    var i := LastIndex(n, '.');
    if 0 < i < |n| - 1 then
      n[i..]
    else
      ""
  }

  /** A name whose only dot is its first character has no suffix. */
  lemma DotOnlyNameHasNoSuffix(n: string)
    ensures |n| > 0 && n[0] == '.' && '.' !in n[1..] ==> NameSuffix(n) == ""
  {
    if |n| > 0 && n[0] == '.' && '.' !in n[1..] {
      forall i | 0 < i < |n| - 1
        ensures n[i] != '.'
      {
        assert n[i] == n[1..][i - 1];
      }
    }
  }

  /** The suffix of a path is the suffix of its final component. */
  function Suffix(p: string): (x: string)
    ensures '/' !in x
  {
    NameSuffix(Name(p))
  }

  /** `str.lower()` on one character, as far as it can matter for the engine:
      ASCII upper case, and the Kelvin sign, which is the one non-ASCII character
      whose lower case is ASCII ('k'). Every other character is kept. */
  function LowerChar(c: char): char
  {
    if 'A' <= c <= 'Z' then (c as int + 32) as char
    else if c == '\U{212A}' then 'k'
    else c
  }

  function Lower(s: string): string
  {
    seq(|s|, i requires 0 <= i < |s| => LowerChar(s[i]))
  }

  /** Lower-casing never creates or removes a separator: '.' and '/' are the only
      characters that lower-case to themselves. */
  lemma LowerCharKeepsSeparators(c: char)
    ensures LowerChar(c) == '.' <==> c == '.'
    ensures LowerChar(c) == '/' <==> c == '/'
  {
  }

  lemma LowerCharIdempotent(c: char)
    ensures LowerChar(LowerChar(c)) == LowerChar(c)
  {
  }

  lemma LowerIdempotent(s: string)
    ensures Lower(Lower(s)) == Lower(s)
  {
    forall i | 0 <= i < |s|
      ensures Lower(Lower(s))[i] == Lower(s)[i]
    {
      LowerCharIdempotent(s[i]);
    }
  }

  lemma LowerSlice(s: string, a: nat, b: nat)
    requires a <= b <= |s|
    ensures Lower(s[a..b]) == Lower(s)[a..b]
  {
  }

  /** Lower-casing does not move the last separator. */
  lemma {:induction false} LastIndexLower(s: string, c: char)
    requires c == '.' || c == '/'
    ensures LastIndex(Lower(s), c) == LastIndex(s, c)
    decreases |s|
  {
    if |s| > 0 {
      LowerCharKeepsSeparators(s[|s| - 1]);
      LowerSlice(s, 0, |s| - 1);
      LastIndexLower(s[..|s| - 1], c);
    }
  }

  lemma NameLower(p: string)
    ensures Name(Lower(p)) == Lower(Name(p))
  {
    LastIndexLower(p, '/');
    LowerSlice(p, LastIndex(p, '/') + 1, |p|);
  }

  lemma NameSuffixLower(n: string)
    ensures NameSuffix(Lower(n)) == Lower(NameSuffix(n))
  {
    LastIndexLower(n, '.');
    var i := LastIndex(n, '.');
    if 0 < i < |n| - 1 {
      LowerSlice(n, i, |n|);
    }
  }

  /** The suffix of a lower-cased path is the lower-cased suffix. */
  lemma SuffixLower(p: string)
    ensures Suffix(Lower(p)) == Lower(Suffix(p))
  {
    NameLower(p);
    NameSuffixLower(Name(p));
  }
}

=== FILE: streams.dfy ===
/** One medium of the engine (video or audio): its queue, flags and handles,
    the controller transitions that start and stop it, and the worker loop that
    plays its queue. Threads are replaced by atomic transitions: starting a
    medium is one transition and the worker advances by one outer-loop
    iteration at a time. A stop is modelled in two forms: `Stop` is the
    controller's part alone (raise the stop flag, release the handles), which
    is what happens when the join times out and the worker exits later;
    `StopVideoJoined` and `StopAudioJoined` run the worker's exit inside the
    join, as when it returns in time. */
module Streams {

  import opened Options
  import opened Media
  import opened Chunking

  /** An open device or decoder handle; only its identity matters. */
  datatype Handle = Handle(id: nat)

  /** A notification to the observers. */
  datatype Notice = Status(text: string) | Error(text: string)

  /** The state of one medium. For video `source` is the capture and `sink` the
      virtual camera; for audio `source` is the decoded buffer and `sink` the
      output stream. `stopRequested` is the medium's stop event. */
  datatype Medium = Medium(
    queue: seq<string>,
    playing: bool,
    loop: bool,
    stopRequested: bool,
    current: Option<string>,
    source: Option<Handle>,
    sink: Option<Handle>)

  /** The state of a medium of a fresh engine. */
  const Idle: Medium := Medium([], false, false, false, None, None, None)

  function Label(k: Kind): string
  {
    match k
    case Video => "Video"
    case Audio => "Audio"
  }

  /** A controller transition: the new state and the notices it emits. */
  datatype Change = Change(medium: Medium, notices: seq<Notice>)

  /** The guard of a start: not already playing and something to play. */
  predicate CanStart(m: Medium)
  {
    !m.playing && |m.queue| > 0
  }

  /** Start the medium's worker: clear the stop flag and mark the medium as
      playing. A playing medium, or one with an empty queue, is left alone. */
  function Start(k: Kind, m: Medium): (c: Change)
    ensures c.medium.playing <==> m.playing || |m.queue| > 0
    ensures c.medium.queue == m.queue && c.medium.loop == m.loop && c.medium.current == m.current
    ensures c.medium.source == m.source && c.medium.sink == m.sink
    ensures CanStart(m) ==> !c.medium.stopRequested && c.notices == [Status(Label(k) + " streaming started")]
    ensures !CanStart(m) ==> c == Change(m, [])
  {
    if !CanStart(m) then Change(m, [])
    else Change(m.(stopRequested := false, playing := true), [Status(Label(k) + " streaming started")])
  }

  /** Stop the medium when the join times out: raise its stop flag, release
      both handles and mark it as not playing, while the worker is still inside
      its loop (it exits later, by an iteration that sees the flag). A medium
      that is not playing is left alone. The queue, the loop flag and the
      current item are kept. */
  function Stop(k: Kind, m: Medium): (c: Change)
    ensures !c.medium.playing
    ensures c.medium.queue == m.queue && c.medium.loop == m.loop && c.medium.current == m.current
    ensures m.playing ==> c.medium.source == None && c.medium.sink == None && c.medium.stopRequested
    ensures m.playing ==> c.notices == [Status(Label(k) + " streaming stopped")]
    ensures !m.playing ==> c == Change(m, [])
  {
    if !m.playing then Change(m, [])
    else Change(m.(stopRequested := true, source := None, sink := None, playing := false),
                [Status(Label(k) + " streaming stopped")])
  }

  /** A second start changes nothing and emits nothing. */
  lemma StartIdempotent(k: Kind, m: Medium)
    ensures Start(k, Start(k, m).medium) == Change(Start(k, m).medium, [])
  {
  }

  /** A second stop changes nothing and emits nothing. */
  lemma StopIdempotent(k: Kind, m: Medium)
    ensures Stop(k, Stop(k, m).medium) == Change(Stop(k, m).medium, [])
  {
  }

  // ----- The worker -----

  /** What happened to one video item, as far as the queue logic can tell:
      the capture would not open, an exception was raised while streaming (the
      camera could not be created, say), the frames ran out, or the stop flag
      was seen between frames. */
  datatype VideoPlayback = CannotOpen | VideoRaised(reason: string) | Ended | Interrupted

  /** What happened to one audio item: an exception was raised (decoding,
      opening or writing to the sink), or the buffer of `frames` frames was
      played, with the stop flag first seen before chunk `stopAt` if at all. */
  datatype AudioPlayback = AudioRaised(reason: string) | Played(frames: nat, stopAt: Option<nat>)

  /** The outcome of one outer-loop iteration; `running` is false once the
      worker has left its loop. */
  datatype Iteration = Iteration(medium: Medium, notices: seq<Notice>, running: bool)

  /** Leaving the worker loop: the medium stops playing and an "ended" status
      follows whatever the iteration reported. */
  function Finish(k: Kind, m: Medium, notices: seq<Notice>): Iteration
  {
    Iteration(m.(playing := false), notices + [Status(Label(k) + " streaming ended")], false)
  }

  function VideoErrors(p: string, item: VideoPlayback): seq<Notice>
  {
    match item
    case CannotOpen => [Error("Video error: Could not open video file: " + p)]
    case VideoRaised(reason) => [Error("Video error: " + reason)]
    case _ => []
  }

  function AudioErrors(item: AudioPlayback): seq<Notice>
  {
    match item
    case AudioRaised(reason) => [Error("Audio error: " + reason)]
    case Played(_, _) => []
  }

  /** The loop flag applies to the just-finished item only when its path is
      non-empty (the source tests the path's truth value). */
  function Requeue(rest: seq<string>, p: string, again: bool): seq<string>
  {
    if again && p != "" then rest + [p] else rest
  }

  /** One iteration of the video worker's outer loop. `stop` is the stop flag as
      the loop check sees it. The head of the queue is taken off and played;
      whatever happened, both handles are released and, in loop mode, the item
      goes back to the tail of the queue. Without loop mode the worker leaves
      after this one item; it also leaves once the stop flag was seen while
      streaming, because the next loop check sees it too. */
  function VideoIteration(m: Medium, stop: bool, item: VideoPlayback): (it: Iteration)
    ensures !it.running ==> !it.medium.playing
    ensures it.medium.loop == m.loop
    ensures !stop && |m.queue| > 0 ==>
      && it.medium.current == Some(m.queue[0])
      && it.medium.source == None && it.medium.sink == None
  {
    if stop || |m.queue| == 0 then Finish(Video, m, [])
    else
      var p := m.queue[0];
      var after := m.(queue := Requeue(m.queue[1..], p, m.loop), current := Some(p),
                      source := None, sink := None);
      if !m.loop || item == Interrupted then Finish(Video, after, VideoErrors(p, item))
      else Iteration(after, VideoErrors(p, item), true)
  }

  /** Whether the write loop ended at or past the end of the buffer
      (`position >= len(audio_data)`), with `position` as the loop leaves it. */
  predicate ReachedEnd(item: AudioPlayback)
  {
    item.Played? && ChunkSize * ChunksWritten(item.frames, item.stopAt) >= item.frames
  }

  /** One iteration of the audio worker's outer loop. Unlike the video worker,
      the item goes back to the queue in loop mode only when its buffer was
      played to the end; an item that raised, or was cut short by the stop
      flag, is dropped. */
  function AudioIteration(m: Medium, stop: bool, item: AudioPlayback): (it: Iteration)
    ensures !it.running ==> !it.medium.playing
    ensures it.medium.loop == m.loop
    ensures !stop && |m.queue| > 0 ==>
      && it.medium.current == Some(m.queue[0])
      && it.medium.source == None && it.medium.sink == None
  {
    if stop || |m.queue| == 0 then Finish(Audio, m, [])
    else
      var p := m.queue[0];
      var after := m.(queue := Requeue(m.queue[1..], p, m.loop && ReachedEnd(item)), current := Some(p),
                      source := None, sink := None);
      if !m.loop || (item.Played? && StopSeen(item.frames, item.stopAt)) then Finish(Audio, after, AudioErrors(item))
      else Iteration(after, AudioErrors(item), true)
  }

  /** The audio re-queue test agrees with the write loop: the end is reached
      exactly when the stop flag was not seen while writing. */
  lemma ReachedEndMeaning(frames: nat, stopAt: Option<nat>)
    ensures ReachedEnd(Played(frames, stopAt)) <==> !StopSeen(frames, stopAt)
  {
    ChunkCountMeaning(frames, ChunksWritten(frames, stopAt));
  }

  /** Every iteration that takes an item takes the head of the queue: the rest
      of the queue keeps its order at the front. */
  lemma IterationsPopHead(m: Medium, stop: bool, v: VideoPlayback, a: AudioPlayback)
    requires !stop && |m.queue| > 0
    ensures VideoIteration(m, stop, v).medium.queue[..|m.queue| - 1] == m.queue[1..]
    ensures AudioIteration(m, stop, a).medium.queue[..|m.queue| - 1] == m.queue[1..]
  {
  }

  /** In loop mode the video worker puts the item back at the tail whatever
      happened to it, even when it could not be opened or raised. */
  lemma VideoLoopRequeuesAlways(m: Medium, item: VideoPlayback)
    requires m.loop && |m.queue| > 0 && m.queue[0] != ""
    ensures VideoIteration(m, false, item).medium.queue == m.queue[1..] + [m.queue[0]]
  {
  }

  /** In loop mode the audio worker puts the item back exactly when its buffer
      was played to the end without the stop flag being seen. */
  lemma AudioLoopRequeuesOnlyAtEnd(m: Medium, item: AudioPlayback)
    requires m.loop && |m.queue| > 0 && m.queue[0] != ""
    ensures var q := AudioIteration(m, false, item).medium.queue;
      && (q == m.queue[1..] + [m.queue[0]] <==> item.Played? && !StopSeen(item.frames, item.stopAt))
      && (q != m.queue[1..] + [m.queue[0]] ==> q == m.queue[1..])
  {
    if item.Played? {
      ReachedEndMeaning(item.frames, item.stopAt);
    }
    assert |m.queue[1..] + [m.queue[0]]| != |m.queue[1..]|;
  }

  /** Without loop mode a worker plays exactly one item: the item leaves the
      queue, the worker leaves its loop and the medium stops playing. */
  lemma NoLoopPlaysOneItem(m: Medium, v: VideoPlayback, a: AudioPlayback)
    requires !m.loop && |m.queue| > 0
    ensures var it := VideoIteration(m, false, v);
      it.medium.queue == m.queue[1..] && !it.running && !it.medium.playing
    ensures var it := AudioIteration(m, false, a);
      it.medium.queue == m.queue[1..] && !it.running && !it.medium.playing
  {
  }

  /** With loop mode and a single item, a completed cycle gives the queue back
      as it was, with that item as the current one, and the worker goes on. */
  lemma SingleItemLoopCycle(m: Medium, p: string, frames: nat)
    requires m.loop && m.queue == [p] && p != ""
    ensures var it := VideoIteration(m, false, Ended);
      it.medium.queue == [p] && it.medium.current == Some(p) && it.running
    ensures var it := AudioIteration(m, false, Played(frames, None));
      it.medium.queue == [p] && it.medium.current == Some(p) && it.running
  {
    ReachedEndMeaning(frames, None);
  }

  /** A video that cannot be opened is reported by exactly one error notice,
      naming the file; in loop mode the worker then goes on to the next item. */
  lemma CannotOpenReportedOnce(m: Medium, p: string)
    requires |m.queue| > 0 && m.queue[0] == p
    ensures var it := VideoIteration(m, false, CannotOpen);
      && it.notices[0] == Error("Video error: Could not open video file: " + p)
      && (forall i | 1 <= i < |it.notices| :: it.notices[i].Status?)
      && (m.loop ==> it.running)
  {
  }

  /** An iteration that finds the stop flag raised, or the queue empty, takes
      nothing: the queue is kept and the worker leaves with an "ended" status. */
  lemma StopObservedAtLoopCheck(m: Medium, v: VideoPlayback, a: AudioPlayback)
    ensures var it := VideoIteration(m, true, v);
      it.medium.queue == m.queue && !it.running && it.notices == [Status("Video streaming ended")]
    ensures var it := AudioIteration(m, true, a);
      it.medium.queue == m.queue && !it.running && it.notices == [Status("Audio streaming ended")]
  {
    assert Label(Video) + " streaming ended" == "Video streaming ended";
    assert Label(Audio) + " streaming ended" == "Audio streaming ended";
  }

  // ----- A stop whose join returns -----

  /** What the video worker does from the moment the stop flag is raised until
      it exits. With `inFlight == None` it is at its loop check and sees the flag
      there. Otherwise it is streaming an item, whose iteration ends with outcome
      `inFlight.value` (normally `Interrupted`, the flag being seen between
      frames); if that iteration does not already leave the loop, the next loop
      check sees the flag. */
  function VideoExit(m: Medium, inFlight: Option<VideoPlayback>): (it: Iteration)
    ensures !it.running && !it.medium.playing
    ensures it.medium.source == None && it.medium.sink == None <== m.source == None && m.sink == None
    ensures |it.notices| > 0 && it.notices[|it.notices| - 1] == Status(Label(Video) + " streaming ended")
  {
    match inFlight
    case None => VideoIteration(m, true, Ended)
    case Some(item) =>
      var first := VideoIteration(m, false, item);
      if !first.running then first
      else
        var last := VideoIteration(first.medium, true, Ended);
        Iteration(last.medium, first.notices + last.notices, false)
  }

  /** The same for the audio worker. */
  function AudioExit(m: Medium, inFlight: Option<AudioPlayback>): (it: Iteration)
    ensures !it.running && !it.medium.playing
    ensures it.medium.source == None && it.medium.sink == None <== m.source == None && m.sink == None
    ensures |it.notices| > 0 && it.notices[|it.notices| - 1] == Status(Label(Audio) + " streaming ended")
  {
    match inFlight
    case None => AudioIteration(m, true, Played(0, None))
    case Some(item) =>
      var first := AudioIteration(m, false, item);
      if !first.running then first
      else
        var last := AudioIteration(first.medium, true, Played(0, None));
        Iteration(last.medium, first.notices + last.notices, false)
  }

  /** The controller's side of a stop whose join returns in time: the guard is
      tested before the join, the worker's exit `exit` happens during it, and the
      handles are released and "stopped" emitted after it. */
  function Joined(k: Kind, m: Medium, exit: Iteration): Change
  {
    if !m.playing then Change(m, [])
    else Change(exit.medium.(stopRequested := true, source := None, sink := None, playing := false),
                exit.notices + [Status(Label(k) + " streaming stopped")])
  }

  /** Stopping a playing video worker that exits within the join's timeout:
      the worker's "ended" comes before the controller's "stopped", and the
      queue is as the worker leaves it. */
  function StopVideoJoined(m: Medium, inFlight: Option<VideoPlayback>): (c: Change)
    ensures !c.medium.playing
    ensures m.playing ==> c.medium.stopRequested && c.medium.source == None && c.medium.sink == None
    ensures m.playing ==>
      && |c.notices| >= 2
      && c.notices[|c.notices| - 2] == Status(Label(Video) + " streaming ended")
      && c.notices[|c.notices| - 1] == Status(Label(Video) + " streaming stopped")
    ensures !m.playing ==> c == Change(m, [])
  {
    Joined(Video, m, VideoExit(m.(stopRequested := true), inFlight))
  }

  /** The same for the audio worker. */
  function StopAudioJoined(m: Medium, inFlight: Option<AudioPlayback>): (c: Change)
    ensures !c.medium.playing
    ensures m.playing ==> c.medium.stopRequested && c.medium.source == None && c.medium.sink == None
    ensures m.playing ==>
      && |c.notices| >= 2
      && c.notices[|c.notices| - 2] == Status(Label(Audio) + " streaming ended")
      && c.notices[|c.notices| - 1] == Status(Label(Audio) + " streaming stopped")
    ensures !m.playing ==> c == Change(m, [])
  {
    Joined(Audio, m, AudioExit(m.(stopRequested := true), inFlight))
  }

  /** A worker caught at its loop check takes nothing: the joined stop leaves
      the medium exactly as the stop without the worker's exit does, and only
      adds the worker's "ended" in front of "stopped". */
  lemma VideoStopAtLoopCheck(m: Medium)
    requires m.playing
    ensures StopVideoJoined(m, None)
         == Change(Stop(Video, m).medium, [Status("Video streaming ended"), Status("Video streaming stopped")])
  {
    assert Label(Video) + " streaming ended" == "Video streaming ended";
    assert Label(Video) + " streaming stopped" == "Video streaming stopped";
  }

  /** The same for the audio worker. */
  lemma AudioStopAtLoopCheck(m: Medium)
    requires m.playing
    ensures StopAudioJoined(m, None)
         == Change(Stop(Audio, m).medium, [Status("Audio streaming ended"), Status("Audio streaming stopped")])
  {
    assert Label(Audio) + " streaming ended" == "Audio streaming ended";
    assert Label(Audio) + " streaming stopped" == "Audio streaming stopped";
  }

  /** Stopping a looping video in the middle of an item puts the item back at
      the tail: the worker's `finally` re-queues it before the join returns. */
  lemma StopInterruptsLoopingVideo(m: Medium)
    requires m.playing && m.loop && |m.queue| > 0 && m.queue[0] != ""
    ensures var c := StopVideoJoined(m, Some(Interrupted));
      && c.medium.queue == m.queue[1..] + [m.queue[0]]
      && c.medium.current == Some(m.queue[0])
      && c.notices == [Status("Video streaming ended"), Status("Video streaming stopped")]
  {
    assert Label(Video) + " streaming ended" == "Video streaming ended";
    assert Label(Video) + " streaming stopped" == "Video streaming stopped";
  }

  /** Stopping a looping audio item before its end drops it: the audio worker
      re-queues only an item played to its end. */
  lemma StopInterruptsLoopingAudio(m: Medium, frames: nat, stopAt: Option<nat>)
    requires m.playing && m.loop && |m.queue| > 0 && StopSeen(frames, stopAt)
    ensures var c := StopAudioJoined(m, Some(Played(frames, stopAt)));
      && c.medium.queue == m.queue[1..]
      && c.medium.current == Some(m.queue[0])
      && c.notices == [Status("Audio streaming ended"), Status("Audio streaming stopped")]
  {
    ReachedEndMeaning(frames, stopAt);
    assert Label(Audio) + " streaming ended" == "Audio streaming ended";
    assert Label(Audio) + " streaming stopped" == "Audio streaming stopped";
  }

  // ----- Whole worker runs -----

  /** The video worker from its start: if the virtual-camera library cannot be
      loaded it reports that once and leaves without touching the queue;
      otherwise it runs iterations, the i-th seeing stop flag `stops[i]` and
      playback `items[i]`, until it leaves or the schedule runs out. */
  function VideoWorker(m: Medium, cameraAvailable: bool, stops: seq<bool>, items: seq<VideoPlayback>): (r: Iteration)
    requires |stops| == |items|
    ensures !r.running ==> !r.medium.playing
    ensures !cameraAvailable ==> !r.running && r.medium.queue == m.queue && |r.notices| == 2 && r.notices[0].Error?
  {
    if !cameraAvailable then
      Finish(Video, m, [Error("pyvirtualcam not installed. Virtual webcam will not work.")])
    else RunVideo(m, stops, items)
  }

  function RunVideo(m: Medium, stops: seq<bool>, items: seq<VideoPlayback>): (r: Iteration)
    requires |stops| == |items|
    ensures !r.running ==> !r.medium.playing
    ensures r.medium.loop == m.loop
    decreases |items|
  {
    if |items| == 0 then Iteration(m, [], true)
    else
      var it := VideoIteration(m, stops[0], items[0]);
      if !it.running then it
      else
        var rest := RunVideo(it.medium, stops[1..], items[1..]);
        Iteration(rest.medium, it.notices + rest.notices, rest.running)
  }

  function RunAudio(m: Medium, stops: seq<bool>, items: seq<AudioPlayback>): (r: Iteration)
    requires |stops| == |items|
    ensures !r.running ==> !r.medium.playing
    ensures r.medium.loop == m.loop
    decreases |items|
  {
    if |items| == 0 then Iteration(m, [], true)
    else
      var it := AudioIteration(m, stops[0], items[0]);
      if !it.running then it
      else
        var rest := RunAudio(it.medium, stops[1..], items[1..]);
        Iteration(rest.medium, it.notices + rest.notices, rest.running)
  }

  predicate NoEmptyPath(q: seq<string>)
  {
    forall i | 0 <= i < |q| :: q[i] != ""
  }

  lemma RotateKeepsItems(q: seq<string>)
    requires |q| > 0
    ensures multiset(q[1..] + [q[0]]) == multiset(q)
    ensures NoEmptyPath(q) ==> NoEmptyPath(q[1..] + [q[0]])
  {
    assert q == [q[0]] + q[1..];
  }

  /** A video iteration never adds an item; in loop mode, with no empty path
      queued, it keeps exactly the same items. */
  lemma VideoIterationItems(m: Medium, stop: bool, item: VideoPlayback)
    ensures var q := VideoIteration(m, stop, item).medium.queue;
      && multiset(q) <= multiset(m.queue)
      && (m.loop && NoEmptyPath(m.queue) ==> multiset(q) == multiset(m.queue) && NoEmptyPath(q))
  {
    var q := VideoIteration(m, stop, item).medium.queue;
    if !stop && |m.queue| > 0 {
      assert m.queue == [m.queue[0]] + m.queue[1..];
      if m.loop && m.queue[0] != "" {
        assert q == m.queue[1..] + [m.queue[0]];
        RotateKeepsItems(m.queue);
      } else {
        assert q == m.queue[1..];
      }
    } else {
      assert q == m.queue;
    }
  }

  /** The video worker's exit during a stop never adds an item; in loop mode,
      with no empty path queued, it keeps exactly the same items. */
  lemma VideoExitItems(m: Medium, inFlight: Option<VideoPlayback>)
    ensures var q := VideoExit(m, inFlight).medium.queue;
      && multiset(q) <= multiset(m.queue)
      && (m.loop && NoEmptyPath(m.queue) ==> multiset(q) == multiset(m.queue))
  {
    match inFlight
    case None =>
      VideoIterationItems(m, true, Ended);
    case Some(item) =>
      var first := VideoIteration(m, false, item);
      VideoIterationItems(m, false, item);
      if first.running {
        VideoIterationItems(first.medium, true, Ended);
      }
  }

  /** The audio worker's exit during a stop never adds an item. */
  lemma AudioExitNeverAdds(m: Medium, inFlight: Option<AudioPlayback>)
    ensures multiset(AudioExit(m, inFlight).medium.queue) <= multiset(m.queue)
  {
    match inFlight
    case None =>
      AudioIterationNeverAdds(m, true, Played(0, None));
    case Some(item) =>
      var first := AudioIteration(m, false, item);
      AudioIterationNeverAdds(m, false, item);
      if first.running {
        AudioIterationNeverAdds(first.medium, true, Played(0, None));
      }
  }

  /** In loop mode the video worker never loses or duplicates an item: however
      the items fare, the queue holds the same paths, as a multiset, after any
      number of iterations. */
  lemma {:induction false} VideoLoopKeepsQueue(m: Medium, stops: seq<bool>, items: seq<VideoPlayback>)
    requires |stops| == |items|
    requires m.loop && NoEmptyPath(m.queue)
    ensures multiset(RunVideo(m, stops, items).medium.queue) == multiset(m.queue)
    decreases |items|
  {
    if |items| > 0 {
      var it := VideoIteration(m, stops[0], items[0]);
      if !stops[0] && |m.queue| > 0 {
        RotateKeepsItems(m.queue);
        assert it.medium.queue == m.queue[1..] + [m.queue[0]];
      }
      if it.running {
        VideoLoopKeepsQueue(it.medium, stops[1..], items[1..]);
      }
    }
  }

  lemma AudioIterationNeverAdds(m: Medium, stop: bool, item: AudioPlayback)
    ensures multiset(AudioIteration(m, stop, item).medium.queue) <= multiset(m.queue)
  {
    if !stop && |m.queue| > 0 {
      assert m.queue == [m.queue[0]] + m.queue[1..];
    }
  }

  /** The audio worker never adds an item: whatever happens, the queue after
      any number of iterations is contained, as a multiset, in the queue before. */
  lemma {:induction false} AudioNeverAddsItems(m: Medium, stops: seq<bool>, items: seq<AudioPlayback>)
    requires |stops| == |items|
    ensures multiset(RunAudio(m, stops, items).medium.queue) <= multiset(m.queue)
    decreases |items|
  {
    if |items| > 0 {
      var it := AudioIteration(m, stops[0], items[0]);
      AudioIterationNeverAdds(m, stops[0], items[0]);
      if it.running {
        AudioNeverAddsItems(it.medium, stops[1..], items[1..]);
      }
    }
  }

  /** Without the camera library the worker reports one error and leaves the
      queue untouched. */
  lemma CameraMissing(m: Medium, stops: seq<bool>, items: seq<VideoPlayback>)
    requires |stops| == |items|
    ensures var it := VideoWorker(m, false, stops, items);
      && it.medium.queue == m.queue && !it.running && !it.medium.playing
      && it.notices == [Error("pyvirtualcam not installed. Virtual webcam will not work."),
                        Status("Video streaming ended")]
  {
    assert Label(Video) + " streaming ended" == "Video streaming ended";
  }
}
